=== FILE: README.md ===
# Face-recognition access control, modelled in Dafny

This project models the core of a face-recognition access system. A camera frame is reduced to a feature vector. The vector is scored against a gallery of enrolled faces with a clamped cosine similarity. An access is admitted only when the score is strictly above 0.6. Every access is logged in two MySQL tables:

- `usuarios`: identities, with name, password, active flag, role and last access;
- `accesos`: one row per access event.

An HTTP admin panel serves statistics, CSV exports and a per-user history, and has a password-confirmed cleanup route that truncates the tables.

The system exists in two variants, and both are modelled:

- the modular code under `clases/`;
- the single-file program `PROGRAMA/program.py`.

Module `Monolith` states, as lemmas, where the two variants behave alike and where they differ.

| module | file | models |
|---|---|---|
| `Wrappers` | wrappers.dfy | `Option` |
| `Config` | config.dfy | the threshold, the cleanup secret, the gallery directory, the role table |
| `Database` | database.dfy | `clases/database.py`: the two tables as sequences of rows in class `DatabaseManager`, with AUTO_INCREMENT counters and a `reachable` flag for a failed connection |
| `FaceRecognition` | face_recognition.dfy | `clases/reconocimiento_fac.py`: the score, the gallery (an insertion-ordered dict), file-name filtering, gallery loading and the best-match scan |
| `Notification` | notification.dfy | the part of `clases/email_envio.py` that logs an access after a report is delivered |
| `Auth` | auth_system.dfy | `clases/auth_system.py`: sessions, roles, registration, logins, enrolment of a face, access verification, activation toggling |
| `WebServer` | web_server.dfy | `clases/web_server.py`: routing, statistics, CSV export, history page, cleanup |
| `Monolith` | monolith.dfy | `PROGRAMA/program.py`: its own recognition loop, name sync, router and cleanup route |

How the model stands in for the outside world:

- **State.** The tables are the fields of `DatabaseManager`. Whether a connection can be opened is its field `reachable`.
- **Table invariant.** `Database.TablesOk` states what the MySQL schema guarantees:
  - unique names;
  - ids issued below the AUTO_INCREMENT counter;
  - every non-null `usuario_id` references a user.
- **Preservation.** Every method that changes the tables keeps `TablesOk`.
- **Outside outcomes.** Every outcome the code gets from outside is a parameter:
  - the clock: `now`;
  - what the camera and the feature extractor yield: `Option<Frame>`, where `Frame` holds `Option<Features>`;
  - whether an image write succeeded: `saved`;
  - whether an e-mail was delivered: `delivered`;
  - the directory listing: `Option<seq<ImageFile>>`;
  - `np.linalg.norm`: `norm`;
  - Python's `str()`: `render`.
- **Forms and query strings.** These are given already parsed, as the first value of each key.

## Model

| member | source | states |
|---|---|---|
| FaceRecognition.CompareFaces | clases/reconocimiento_fac.py:70-92 | the score is 0 when either vector is missing or either truncated norm is 0; otherwise it is `max(0, dot/(n1*n2))` over the common prefix; it is never negative; the single-file program (PROGRAMA/program.py:185-207) computes the same score |
| FaceRecognition.DotCommutes | clases/reconocimiento_fac.py:79 | the dot product is symmetric |
| FaceRecognition.CompareFacesSymmetric | clases/reconocimiento_fac.py:70-92 | the score does not depend on the order of its two arguments |
| FaceRecognition.TrailingEntriesIgnored | clases/reconocimiento_fac.py:75-77 | entries past the shorter vector's length do not change the score |
| FaceRecognition.SumOfSquaresNonNegative | clases/reconocimiento_fac.py:79-81 | `v·v >= 0`, the premise of the Euclidean norm |
| FaceRecognition.SelfScoreIsOne | clases/reconocimiento_fac.py:70-92 | under a Euclidean norm, a vector of non-zero norm scores exactly 1 against itself |
| FaceRecognition.CauchySchwarz | clases/reconocimiento_fac.py:79-89 | `(a·b)² <= (a·a)(b·b)`, proved by induction on the vectors |
| FaceRecognition.CosineAtMostOne | clases/reconocimiento_fac.py:86-89 | with positive norms whose squares are the self-products, a Cauchy-Schwarz bound on the dot product keeps the quotient at most 1 |
| FaceRecognition.CosineOfVectorsAtMostOne | clases/reconocimiento_fac.py:79-89 | for two vectors of equal length with positive Euclidean norms, the cosine quotient is at most 1 |
| FaceRecognition.ScoreAtMostOne | clases/reconocimiento_fac.py:75-92 | when the norm is Euclidean on both truncated vectors, the clamped score is at most 1 |
| FaceRecognition.CompareFacesAtMostOne | clases/reconocimiento_fac.py:86-92 | under a Euclidean norm every score lies in [0, 1] |
| FaceRecognition.IndexOf | clases/reconocimiento_fac.py:36-40 | the position of a name in the gallery, or None exactly when no entry has that name |
| FaceRecognition.Lookup | clases/reconocimiento_fac.py:36-40 | dict lookup: the entry stored under the name, or None exactly when the name is absent |
| FaceRecognition.LookupAt | clases/reconocimiento_fac.py:36-40 | with unique names, looking up an entry's name finds that entry |
| FaceRecognition.Put | clases/reconocimiento_fac.py:36-40 | dict assignment: names stay unique; the key then maps to the new entry and every other key is unchanged; a new key is appended; an existing key keeps its position; every entry is the new one or an old one |
| FaceRecognition.Best | clases/reconocimiento_fac.py:147-155 | the scan's result is 0 or more and at least every entry's score; a zero result is "Desconocido"; a positive one names the first entry that attains it |
| FaceRecognition.Recognize | clases/reconocimiento_fac.py:139-157 | no features give ("Desconocido", 0.0); otherwise the best match over the gallery |
| FaceRecognition.EarliestWinsTie | clases/reconocimiento_fac.py:150-155 | because the comparison is a strict `>`, the earliest of two entries with the top score is the one reported |
| FaceRecognition.Lower | clases/reconocimiento_fac.py:28 | `lower()` maps every character and keeps the length |
| FaceRecognition.LastIndex | clases/reconocimiento_fac.py:29 | the last occurrence of a character, or None when it does not occur |
| FaceRecognition.SplitExt | clases/reconocimiento_fac.py:29 | `os.path.splitext`: stem + extension is the name; the extension is empty or one dot followed by no dot; an extension is split off iff some dot has a non-dot character before it, and then the stem has one |
| FaceRecognition.StemOfImageFile | clases/reconocimiento_fac.py:28-29 | a name with a non-dot character plus an image extension is accepted, and its identity is the name |
| FaceRecognition.DotOnlyNameKeepsExtension | clases/reconocimiento_fac.py:29 | a stem made only of dots keeps its extension, so ".jpg" enrols the identity ".jpg" |
| FaceRecognition.ImageExtensionAccepted | clases/reconocimiento_fac.py:28 | any name followed by ".png", ".jpg" or ".jpeg", in any letter case, passes the image filter |
| FaceRecognition.LastDotStartsExtension | clases/reconocimiento_fac.py:29 | the dot opening a dot-free extension is the last dot of the file name, and what precedes it is the name |
| FaceRecognition.LoadFaces | clases/reconocimiento_fac.py:16-41 | the loaded gallery has unique names; every accepted, decodable file can be looked up under its stem; every entry comes from such a file; the entry under a stem is the one of the last such file with that stem in listing order |
| FaceRecognition.LastFileWins | clases/reconocimiento_fac.py:36-40 | one more file keeps the entry under each stem equal to the last accepted, decodable file with that stem |
| FaceRecognition.GalleryStep | clases/reconocimiento_fac.py:26-40 | one more file of the listing keeps the three gallery properties: unique names, every accepted file found, every entry traceable to a file |
| FaceRecognition.LookupsKept | clases/reconocimiento_fac.py:36-40 | storing the last file's entry leaves every earlier accepted file still found under its stem |
| FaceRecognition.ProvenanceKept | clases/reconocimiento_fac.py:36-40 | storing the last file's entry leaves every gallery entry traceable to an accepted file of the listing |
| FaceRecognition.LoadStep | clases/reconocimiento_fac.py:26-40 | one more file extends the gallery by `Put` when accepted and decodable, and extends the synced names by its stem when accepted |
| FaceRecognition.FacialRecognition.constructor | clases/reconocimiento_fac.py:8-14 | construction loads the gallery as `LoadFaces`. With a directory and a connection it syncs the accepted stems into the users table as `SyncMany`, with the temporary password. Without either, the users table and its counter are unchanged. Events, their counter and reachability are always kept |
| FaceRecognition.FacialRecognition.LoadKnownFaces | clases/reconocimiento_fac.py:16-41 | the gallery is reset, then equals `LoadFaces` of the listing (empty if the directory is missing); with a connection, every accepted stem is synced into `usuarios` with the temporary password, in listing order |
| FaceRecognition.FacialRecognition.LoadFile | clases/reconocimiento_fac.py:28-40 | one loop iteration: sync the stem of an accepted file, store it when the image decodes |
| FaceRecognition.FacialRecognition.RecognizeFace | clases/reconocimiento_fac.py:139-157 | the loop computes `Recognize` of the frame's features over the gallery |
| Database.FindByName | clases/database.py:209-211 | a row with that name exists exactly when one is returned, and the returned row has that name |
| Database.FindActiveByName | clases/database.py:176-184 | returns an active row with that name exactly when one exists |
| Database.FindByNameIsTheRow | clases/database.py:209-211 | with unique names, the row found by name is the row holding that name |
| Database.CountName | clases/database.py:148-150 | the count of rows with a name is 0 exactly when the name is absent |
| Database.CountNameAppend | clases/database.py:153-159 | appending a row raises its name's count by one and leaves other counts |
| Database.UniqueNameCountsOnce | clases/database.py:148-159 | under the uniqueness invariant a present name occurs exactly once |
| Database.SyncRows | clases/database.py:227-254 | after a sync the name is present; an existing name leaves the table unchanged; otherwise exactly one row with that name is appended |
| Database.SyncIdempotent | clases/database.py:227-254 | syncing the same name twice is the same as syncing it once |
| Database.SyncLeavesOneRow | clases/database.py:227-254 | with unique names, a synced name occurs exactly once |
| Database.SyncMany | clases/reconocimiento_fac.py:26-33 | syncing a list of names keeps the old rows as a prefix, leaves every name present, appends only rows carrying listed names, and keeps names unique |
| Database.SyncKeepsUniqueNames | clases/database.py:227-254 | a conditional insert keeps names unique |
| Database.InsertKeepsTablesOk | clases/database.py:153-159 | inserting a fresh name under the next id keeps the table invariant |
| Database.AppendAccessKeepsTablesOk | clases/database.py:278-282 | appending an event under the next id whose user reference is null or an existing user keeps the table invariant |
| Database.PromoteAdmin | clases/database.py:81-87 | only rows named "admin" change, and they get the admin role and the configured password; ids and names are kept |
| Database.EnsureAdmin | clases/database.py:73-87 | afterwards a row named "admin" with the admin role and the configured password exists. An existing "admin" is promoted in place: every id and name is kept and every other row is unchanged. Otherwise one row is appended |
| Database.EnsureAdminKeepsTablesOk | clases/database.py:73-87 | the admin guarantee keeps the table invariant |
| Database.Touch | clases/database.py:284-288 | only `ultimo_acceso` changes, and only in the row with the given id |
| Database.SetActive | clases/auth_system.py:376-378 | only `activo` changes, and only in the row with the given id |
| Database.SameKeysKeepTablesOk | clases/database.py:284-288 | an update that keeps ids and names keeps the table invariant |
| Database.LoggedUsersOnlyTouchesAdmitted | clases/database.py:284-288 | logging changes a user row only for an admitted access with a truthy id, and then only its last access |
| Database.DatabaseManager.constructor | clases/database.py:7-8 | a manager over given tables satisfying the invariant |
| Database.DatabaseManager.CreateUserTable | clases/database.py:31-98 | with a connection the admin guarantee is applied; without one nothing changes |
| Database.DatabaseManager.RegisterNewUser | clases/database.py:138-165 | success iff connected and the name is new; the three messages; on success exactly one user row with the password and role user is appended |
| Database.DatabaseManager.VerifyUserCredentials | clases/database.py:167-199 | accepts iff connected and an active row with that name stores exactly that password, and then returns that row |
| Database.DatabaseManager.GetUserId | clases/database.py:201-217 | an id iff connected and the name exists; the id is positive and belongs to that name; PROGRAMA/program.py:286-298 performs the same lookup |
| Database.DatabaseManager.SyncUser | clases/database.py:219-261 | with a connection the table becomes `SyncRows` with the temporary password; without one nothing changes |
| Database.DatabaseManager.InsertRowIfAbsent | clases/database.py:227-254 | inserts a row for the name only when absent, keeping the invariant |
| Database.DatabaseManager.LogAccess | clases/database.py:263-299 | succeeds iff connected and the id is null or references a user. On success one event row is appended under the next id, and the user's last access is refreshed only for PERMITIDO with a truthy id. On failure nothing changes; the insert-then-update of PROGRAMA/program.py:254-284 is the same operation |
| Database.DatabaseManager.FindId | clases/database.py:123 | finds the row a `usuario_id` references, or None exactly when the foreign key would fail |
| Database.DatabaseManager.UpdateActive | clases/auth_system.py:376-378 | with a connection, sets `activo` of that id only |
| Database.DatabaseManager.TruncateAccesos | clases/web_server.py:944-946 | the event table is emptied and its counter reset; users are kept |
| Database.DatabaseManager.TruncateAll | clases/web_server.py:947-950 | both tables are emptied and both counters reset |
| Notification.LoggedId | clases/email_envio.py:51-59 | a DENEGADO event has a null user id; a PERMITIDO one carries the id of the row with that name when there is one |
| Notification.EmailSender.constructor | clases/email_envio.py:12-14 | the notifier shares the store |
| Notification.EmailSender.SendDetailedEmail | clases/email_envio.py:16-70 | without a sender password nothing is sent or logged. Success iff delivered. Exactly one event is logged, and only after delivery; the event counter then advances by one, while reachability and the user counter never change |
| Auth.RolesShareNoPermission | config.py:30-38 | no permission is granted to both roles |
| Auth.AdminPermissionsNeedAdminRole | clases/auth_system.py:250-254 | no role grants nothing; user management needs the admin role and access verification the user role |
| Auth.ValidateRegistration | clases/auth_system.py:57-70 | accepted iff the name and password are non-empty and the confirmation matches; otherwise the first failing check, in the code's order: empty name, empty password, mismatch |
| Auth.AccessDecision | clases/auth_system.py:442-469 | PERMITIDO iff the best match is the logged-in user and the score is strictly above 0.6 |
| Auth.AdmittedUserIsEnrolled | clases/auth_system.py:442 | an admitted user has a gallery entry whose score beats the threshold |
| Auth.AuthSystem.constructor | clases/auth_system.py:10-16 | starts with no session |
| Auth.AuthSystem.HasPermission | clases/auth_system.py:250-254 | true iff the current role's permission list holds the permission; never without a session |
| Auth.AuthSystem.FacialLogin | clases/auth_system.py:179-206 | logs in iff the recognised name scores above the threshold and has a row in the store (active or not); the session takes that name, the role user and that row's id |
| Auth.AuthSystem.PasswordLoginUser | clases/auth_system.py:208-229 | logs in iff the credentials check accepts; the session takes the row's id and role |
| Auth.AuthSystem.AdminLogin | clases/auth_system.py:231-248 | logs in iff the credentials check accepts a row with the admin role; the session takes that row's id |
| Auth.AuthSystem.Logout | clases/auth_system.py:276-280 | clears user, id and role |
| Auth.AuthSystem.RegisterNewUser | clases/auth_system.py:50-99 | rejects invalid input without touching anything. Otherwise it succeeds iff the store accepts the name; a refusal changes nothing. On success the new row is appended and the session opens as the new user. The face enrolment then has the outcomes of `RegisterNewFaceAutomatic`. The event log is never touched |
| Auth.AuthSystem.RegisterNewFaceAutomatic | clases/auth_system.py:101-145 | needs a session, a frame and a saved image. When the image has no face, the file is removed and nothing else changes. Otherwise the gallery maps the user to the new face |
| Auth.AuthSystem.RegisterNewFace | clases/auth_system.py:393-424 | the same enrolment started from the menu, with the same outcomes |
| Auth.AuthSystem.VerifyAccess | clases/auth_system.py:426-474 | nothing without a session and a frame. Otherwise the decision is `AccessDecision` of the recognised match. Without a sender password, delivery or connection the store is unchanged. Otherwise exactly one event is logged: reported name, decision, score, image path and time. Its user id is null for DENEGADO and the user's id for PERMITIDO; the users table is refreshed as `log_access` does and the event counter advances by one; reachability and the user counter never change |
| Auth.AuthSystem.ToggleUserStatus | clases/auth_system.py:355-391 | changes a row only for a listed id, writing the negation of the listed flag; anything else changes nothing |
| WebServer.RouteGet | clases/web_server.py:156-172 | 404 exactly for a path that is none of the four exact paths and does not start with the history prefix |
| WebServer.HistoryPrefixRoutes | clases/web_server.py:166-167 | every path starting with "/historial-usuario" reaches the history page |
| WebServer.ExactPathsAreExact | clases/web_server.py:158-165 | any query string or sub-path after "/", "/data" or an export path is a 404, and so is "/exportar" |
| WebServer.RoutePost | clases/web_server.py:174-182 | only "/limpiar" is handled |
| WebServer.CountType | clases/web_server.py:757-758 | the count is the number of positions holding an event of that type |
| WebServer.TypeIndicesExtend | clases/web_server.py:757-758 | one more event adds its own position to the selection of its type and nothing else |
| WebServer.CountTypesPartition | clases/web_server.py:99-111 | admitted plus denied equals the total, so "denegados = total - permitidos" is the count of denied events |
| WebServer.Reverse | clases/web_server.py:770-775 | reversal keeps the length and maps position i to position n-1-i |
| WebServer.Newest | clases/web_server.py:770-775 | at most n rows, newest first |
| WebServer.ForUser | clases/web_server.py:62-67 | exactly the events logged under that name; their order and multiplicity are fixed by `ForUserKeepsTableOrder` |
| WebServer.UserPositions | clases/web_server.py:62-67 | the table positions whose event carries that name, strictly increasing, each matching position listed |
| WebServer.ForUserKeepsTableOrder | clases/web_server.py:62-67 | the filtered list has one event per matching position, in table order: its i-th event is the event at the i-th matching position |
| WebServer.ForUserAt | clases/web_server.py:62-67 | the same fact at one given place of the filtered list |
| WebServer.PanelStats | clases/web_server.py:752-762 | the admitted and denied counters add up to the event total |
| WebServer.UserRecord | clases/web_server.py:876-879 | one cell per column of the user export header |
| WebServer.AccessRecord | clases/web_server.py:881-887 | one cell per column of the event export header |
| WebServer.Records | clases/web_server.py:875-887 | one record per user in table order, or one per event newest first; each record holds exactly the selected columns of its row |
| WebServer.EmptyCellMeansNull | clases/web_server.py:895-896 | when `str()` never yields "", a cell is empty exactly when the value is NULL |
| WebServer.HistoryRows | clases/web_server.py:61-69 | the user's events newest first: all of them when there are at most 50, else the 50 newest |
| WebServer.HistoryRowAt | clases/web_server.py:61-69 | the i-th history line is the event at the i-th matching table position counted from the end, and there are min(matches, 50) lines |
| WebServer.CleanDecision | clases/web_server.py:917-952 | connection first, then the confirmation, then the type; truncation only when connected and confirmed |
| WebServer.CleanStatusCases | clases/web_server.py:932-970 | when connected: a wrong confirmation is 400, and 200 comes iff the confirmation is right and the type is "accesos" or "todo". When unreachable: 500 |
| WebServer.WebHandler.constructor | clases/web_server.py:24-38 | the handler opens connections to the shared store |
| WebServer.WebHandler.SendData | clases/web_server.py:742-798 | 500 without a connection. Otherwise the counters, the five selected columns of every user and the six selected columns of the 20 newest events; no password, role or image path. Admitted plus denied equals the total |
| WebServer.WebHandler.ExportData | clases/web_server.py:865-915 | 500 without a connection. Otherwise the header, then one row per record. Each cell is "" for NULL and `str()` otherwise |
| WebServer.WebHandler.ServeUserHistory | clases/web_server.py:40-155 | 400 without a non-empty user, then 500 without a connection. Otherwise the newest ≤50 events of that user, one line each (similarity N/A when 0). When there are events: total, admitted, denied and percentage |
| WebServer.WebHandler.DoGet | clases/web_server.py:156-172 | per route, the answer of its handler: 404, the index, the panel data, the two exports with their rows, and the history page with its 400 and 500 cases; 500 for the data routes when the store is unreachable |
| WebServer.WebHandler.HandleClean | clases/web_server.py:917-970 | status follows `CleanDecision`; only the two valid types truncate, with their messages; "accesos" restarts the event counter and keeps users and the user counter, "todo" restarts both counters; every other outcome leaves the store unchanged; reachability never changes |
| WebServer.WebHandler.DoPost | clases/web_server.py:174-182 | 404 and no change for other paths. "/limpiar" answers and truncates as `HandleClean`: only "accesos" and "todo" with the right token truncate, with the same counter resets, every other outcome leaves both tables unchanged; reachability never changes |
| Monolith.Decide | PROGRAMA/program.py:1007-1012 | PERMITIDO iff the best score is strictly above 0.6, then for the best name; otherwise DENEGADO for "Desconocido", keeping the near-miss score |
| Monolith.AdmittedNameIsBestInGallery | PROGRAMA/program.py:995-1012 | an admitted name is the first gallery entry with the top score, and that score beats the threshold |
| Monolith.NoFaceIsDeniedWithZero | PROGRAMA/program.py:990-993 | a frame without a face is reported as DENEGADO "Desconocido" with score 0 |
| Monolith.ModularAdmissionImpliesMonolithAdmission | PROGRAMA/program.py:1007-1012 | whatever the modular check admits, this variant admits as well. A best match above the threshold that is not the logged-in user is admitted here and denied there |
| Monolith.LegacyRouteGet | PROGRAMA/program.py:609-621 | five exact paths, "/exportar" included; no history route; 404 otherwise |
| Monolith.RoutersAgreeElsewhere | PROGRAMA/program.py:609-621 | the two routers agree except on "/exportar" (export here, 404 there) and on history paths (404 here) |
| Monolith.LegacyCleanDecision | PROGRAMA/program.py:739-783 | confirmation first, then the connection, then the type; truncation only when confirmed and connected |
| Monolith.CleanRoutesCompared | PROGRAMA/program.py:749-756 | with a connection both cleanup routes decide alike; without one a wrong token is 400 here and 500 in the modular panel; neither then succeeds |
| Monolith.LegacyWebHandler.constructor | PROGRAMA/program.py:600-607 | the handler uses the same store |
| Monolith.LegacyWebHandler.LegacyDoGet | PROGRAMA/program.py:609-644 | dispatches by `LegacyRouteGet` to the same panel data and the same exports with their rows; "/exportar" writes the event export; a missing index file is a 404 |
| Monolith.LegacyWebHandler.LegacyHandleClean | PROGRAMA/program.py:739-783 | a wrong token is a 400 that never touches the store, connected or not; the status follows `LegacyCleanDecision`; only the two types truncate, with this variant's messages and the same counter resets; reachability never changes |
| Monolith.FacialRecognitionDB.constructor | PROGRAMA/program.py:24-43 | the program holds the store, the gallery and a notifier whose sender password is set |
| Monolith.FacialRecognitionDB.SyncUserToDb | PROGRAMA/program.py:138-156 | without a connection nothing changes; otherwise the name ends up in exactly one row, inserted without a password when absent |
| Monolith.FacialRecognitionDB.RecognizeUser | PROGRAMA/program.py:982-1012 | no frame: nothing reported or logged. No face: DENEGADO "Desconocido" 0.0. Otherwise `Decide` of the best match. One event is logged only when delivered and connected, and then the last access of an admitted user is refreshed and the event counter advances by one; reachability and the user counter never change |
| Monolith.FacialRecognitionDB.BestMatch | PROGRAMA/program.py:995-1003 | the inline loop computes `Best` over the gallery |

## Left out

- Camera capture, Haar-cascade detection and feature extraction (OpenCV) are foreign calls. They appear only as their outcome: no frame, a frame without features, or a feature vector.
- Floating-point rounding: scores are exact reals, and `np.linalg.norm` is the parameter `norm`. Bounds on the score are proved for any Euclidean norm (`EuclideanNorm`).
- FaceRecognition.SelfScoreIsOne: stated only for a vector whose norm is non-zero. A zero vector scores 0 by the zero-norm branch.
- Python's `lower()` is modelled for ASCII letters only. `os.path.join` is modelled with "/" as the separator.
- Stripping of typed input (`.strip()`), console menus, prompts, `main.py`, the voice module and its searches are interactive I/O.
- MySQL collation: names are compared exactly, whereas the server may compare them case-insensitively.
- DDL is not modelled: table creation, the `ALTER TABLE` migrations of `create_user_table`, and the column check of `sync_user`. The `confianza` column is not modelled either.
- Records and SendData: `ORDER BY nombre` on the user listings is not modelled; users come in table (insertion) order.
- `ORDER BY fecha_acceso DESC` is modelled as reverse insertion order, which holds for a non-decreasing clock.
- One `now` stands for every `datetime.now()` within a call.
- Python's `str()` of a cell is the parameter `render`. JSON and CSV text encoding, HTML bodies and HTTP headers are not modelled.
- URL parsing and percent-decoding are not modelled: query strings and forms are given as maps to their first value.
- Reading `web_admin/index.html` and the basic fallback page are not modelled. The modular panel always answers the index with a 200 page; the single-file one answers 404 when the file is missing (`indexFound`).
- The socket server, its threads, `open_web_admin` and `shutdown` are outside the model.
- E-mail composition, attachments, SMTP transport and deleting the temporary image are outside the model. The transport's outcome is the parameter `delivered`.
- Exceptions from the driver after a successful connection are not modelled: a reachable store executes every statement. This covers the 500 answers to driver errors and the error-message branches of `register_new_user` and `sync_user`.
- Read-only queries that are not modelled:
  - `get_access_history` only feeds the e-mail body, whose composition is outside the model.
  - `export_personal_history` in the modular panel is reached by no route of `do_GET`.
  - `get_user_access_history` (the console history menu), `get_last_user_access` (the voice read-out of the single-file program) and that program's text export `export_to_text_file` belong to the console menus.
  - `get_all_users` is the listing that `Auth.AuthSystem.ToggleUserStatus` takes as a parameter.
- The single-file program's `load_known_faces` and `create_tables` are not modelled. Its gallery is given to `FacialRecognitionDB` at construction; its loading loop is the one of `FacialRecognition.LoadKnownFaces`, with the sync of `SyncUserToDb` in place of `SyncUser`.
- An unknown `tipo` in the cleanup form raises an error inside the handler, so the answer is a 500.
- The modular cleanup handler opens its connection before it checks the token, so with the store down a wrong token is a 500. The single-file handler checks the token first. Both orders are modelled and compared in `Monolith.CleanRoutesCompared`.

=== FILE: auth_system.dfy ===
/**
 * The session and role logic of the modular system (clases/auth_system.py).
 * The session is the triple (current user, current role, current user id);
 * logins set it only on success and logout clears it. Camera captures are
 * parameters (`frame`, None when the capture was cancelled), and so are the
 * outcomes of writing an image file (`saved`) and of delivering an e-mail
 * (`delivered`). Interactive prompts are replaced by the values typed in.
 */
module Auth {
  import opened Wrappers
  import opened Config
  import opened Database
  import opened FaceRecognition
  import opened Notification

  /** `has_permission`: a role is set and the role table grants the permission. */
  predicate Allowed(role: Option<Role>, permission: string)
  {
    role.Some? && permission in Permissions(role.value)
  }

  /** No permission belongs to both roles. */
  lemma RolesShareNoPermission(permission: string)
    ensures !(permission in Permissions(Admin) && permission in Permissions(User))
  {
  }

  /** Without a session nothing is permitted; administration is reserved to the admin role. */
  lemma AdminPermissionsNeedAdminRole(role: Option<Role>)
    ensures !Allowed(None, "admin_panel")
    ensures Allowed(role, "manage_users") <==> role == Some(Admin)
    ensures Allowed(role, "verify_access") <==> role == Some(User)
  {
  }

  /** Why a registration is refused before the store is consulted, checked in this order. */
  datatype Rejection = EmptyUsername | EmptyPassword | PasswordMismatch

  /** register_new_user's input validation. */
  function ValidateRegistration(username: string, password: string, confirm: string): (r: Option<Rejection>)
    ensures r.None? <==> username != "" && password != "" && password == confirm
    ensures username == "" ==> r == Some(EmptyUsername)
    ensures username != "" && password == "" ==> r == Some(EmptyPassword)
    ensures username != "" && password != "" && password != confirm ==> r == Some(PasswordMismatch)
  {
    if username == "" then Some(EmptyUsername)
    else if password == "" then Some(EmptyPassword)
    else if password != confirm then Some(PasswordMismatch)
    else None
  }

  /** verify_access's rule: admit only the logged-in user, strictly above the threshold. */
  function AccessDecision(currentUser: string, m: Match): (r: AccessType)
    ensures r == Permitido <==> m.name == currentUser && m.similarity > SimilarityThreshold
  {
    if m.name == currentUser && m.similarity > SimilarityThreshold then Permitido else Denegado
  }

  /** The name the verify_access report carries. */
  function ReportedName(currentUser: string, m: Match): string
  {
    if AccessDecision(currentUser, m) == Permitido then currentUser else "Intento de acceso como " + m.name
  }

  /** An admitted verification matched the user against an entry of the gallery under that user's name. */
  lemma AdmittedUserIsEnrolled(currentUser: string, probe: Features, faces: seq<KnownFace>, norm: Norm)
    requires AccessDecision(currentUser, Best(probe, faces, norm)) == Permitido
    ensures exists i :: 0 <= i < |faces| && faces[i].name == currentUser && Score(probe, faces[i], norm) > SimilarityThreshold
  {
    var m := Best(probe, faces, norm);
    var i :| 0 <= i < |faces| && IsFirstBest(probe, faces, norm, i, m);
    assert faces[i].name == currentUser;
  }

  /** Path of a user's reference image. */
  function FacePath(username: string): string
  {
    JoinPath(KnownFacesDir, username + ".jpg")
  }

  /** Python truthiness of the current user: None and "" are false. */
  predicate LoggedIn(user: Option<string>)
  {
    user.Some? && user.value != ""
  }

  class AuthSystem {
    const db: DatabaseManager
    const fr: FacialRecognition
    const email: EmailSender
    var currentUser: Option<string>
    var currentRole: Option<Role>
    var currentUserId: Option<nat>
    /** The reference images this class writes, by path (cv2.imwrite / os.remove). */
    var faceFiles: map<string, Frame>

    /** The session is all set or all cleared. */
    predicate SessionConsistent()
      reads this
    {
      (currentUser.None? && currentRole.None? && currentUserId.None?) ||
      (currentUser.Some? && currentRole.Some? && currentUserId.Some?)
    }

    ghost predicate Valid()
      reads this, db, fr, email
    {
      fr.db == db && email.db == db && db.Valid() && UniqueFaceNames(fr.knownFaces) && SessionConsistent()
    }

    constructor(db: DatabaseManager, fr: FacialRecognition, email: EmailSender)
      requires fr.db == db && email.db == db && db.Valid() && UniqueFaceNames(fr.knownFaces)
      ensures Valid()
      ensures this.db == db && this.fr == fr && this.email == email
      ensures currentUser.None? && currentRole.None? && currentUserId.None? && faceFiles == map[]
    {
      this.db := db;
      this.fr := fr;
      this.email := email;
      currentUser := None;
      currentRole := None;
      currentUserId := None;
      faceFiles := map[];
    }

    /** has_permission. */
    method HasPermission(permission: string) returns (r: bool)
      ensures r <==> Allowed(currentRole, permission)
      ensures currentUser.None? && SessionConsistent() ==> !r
    {
      r := currentRole.Some? && permission in Permissions(currentRole.value);
    }

    /**
     * facial_login: recognise the captured frame; succeed only strictly above
     * the threshold and when the matched name has a row in the store.
     */
    method FacialLogin(frame: Option<Frame>) returns (ok: bool)
      requires Valid()
      modifies this
      ensures Valid()
      ensures ok <==> (
        frame.Some? &&
        Recognize(frame.value.features, fr.knownFaces, fr.norm).similarity > SimilarityThreshold &&
        db.reachable && HasName(db.usuarios, Recognize(frame.value.features, fr.knownFaces, fr.norm).name))
      ensures !ok ==> unchanged(this)
      ensures ok ==> (
        currentUser == Some(Recognize(frame.value.features, fr.knownFaces, fr.norm).name) &&
        currentRole == Some(User) && faceFiles == old(faceFiles))
      ensures ok ==>
        exists i :: 0 <= i < |db.usuarios| && db.usuarios[i].nombre == currentUser.value && currentUserId == Some(db.usuarios[i].id)
    {
      if frame.None? {
        return false;
      }
      var m := fr.RecognizeFace(frame.value);
      if m.similarity > SimilarityThreshold {
        var userId := db.GetUserId(m.name);
        if Truthy(userId) {
          currentUser, currentUserId, currentRole := Some(m.name), userId, Some(User);
          return true;
        }
      }
      return false;
    }

    /** password_login_user: both fields required, then the credential check; the session takes the row's role. */
    method PasswordLoginUser(username: string, password: string) returns (ok: bool)
      requires Valid()
      modifies this
      ensures Valid()
      ensures ok <==> (
        username != "" && password != "" && db.reachable &&
        exists i :: 0 <= i < |db.usuarios| && Admits(db.usuarios[i], username, password))
      ensures !ok ==> unchanged(this)
      ensures ok ==> (
        exists i :: 0 <= i < |db.usuarios| && Admits(db.usuarios[i], username, password) &&
          currentUser == Some(username) && currentUserId == Some(db.usuarios[i].id) && currentRole == Some(db.usuarios[i].rol))
    {
      if username == "" || password == "" {
        return false;
      }
      var success, row := db.VerifyUserCredentials(username, password);
      if success && row.Some? {
        currentUser, currentUserId, currentRole := Some(row.value.nombre), Some(row.value.id), Some(row.value.rol);
        return true;
      }
      return false;
    }

    /** admin_login: the credentials verify and the row's role is admin. */
    method AdminLogin(username: string, password: string) returns (ok: bool)
      requires Valid()
      modifies this
      ensures Valid()
      ensures ok <==> (
        db.reachable &&
        exists i :: 0 <= i < |db.usuarios| && Admits(db.usuarios[i], username, password) && db.usuarios[i].rol == Admin)
      ensures !ok ==> unchanged(this)
      ensures ok ==> currentUser == Some(username) && currentRole == Some(Admin)
      ensures ok ==> (
        exists i :: 0 <= i < |db.usuarios| && Admits(db.usuarios[i], username, password) && db.usuarios[i].rol == Admin &&
          currentUserId == Some(db.usuarios[i].id))
    {
      var success, row := db.VerifyUserCredentials(username, password);
      if success && row.Some? && row.value.rol == Admin {
        currentUser, currentUserId, currentRole := Some(row.value.nombre), Some(row.value.id), Some(Admin);
        var j :| 0 <= j < |db.usuarios| && db.usuarios[j] == row.value;
        return true;
      }
      if success && row.Some? {
        forall i | 0 <= i < |db.usuarios| && Admits(db.usuarios[i], username, password)
          ensures db.usuarios[i].rol != Admin
        {
          var j :| 0 <= j < |db.usuarios| && db.usuarios[j] == row.value;
        }
      }
      return false;
    }

    /** Logout from either menu: the whole session is cleared. */
    method Logout()
      requires Valid()
      modifies this
      ensures Valid()
      ensures currentUser.None? && currentRole.None? && currentUserId.None?
      ensures faceFiles == old(faceFiles)
    {
      currentUser, currentUserId, currentRole := None, None, None;
    }

    /**
     * register_new_user: validate the inputs, register the row, open the
     * session as a 'user' and try to enrol the face; a stored row is success
     * whether or not the face was enrolled.
     */
    method RegisterNewUser(username: string, password: string, confirm: string, frame: Option<Frame>, saved: bool, now: nat)
      returns (ok: bool)
      requires Valid()
      modifies this, db, fr
      ensures Valid()
      ensures ValidateRegistration(username, password, confirm).Some? ==>
        !ok && unchanged(this) && unchanged(db) && unchanged(fr)
      ensures ok <==> (
        ValidateRegistration(username, password, confirm).None? &&
        old(db.reachable) && !HasName(old(db.usuarios), username))
      ensures !ok ==> unchanged(this) && unchanged(db) && unchanged(fr)
      ensures ok ==> db.usuarios == old(db.usuarios) + [NewUser(old(db.nextUserId), username, Some(password), now, User)]
      ensures db.accesos == old(db.accesos)
      ensures ok ==> currentUser == Some(username) && currentRole == Some(User) && currentUserId == Some(old(db.nextUserId))
      ensures ok && (frame.None? || !saved) ==> faceFiles == old(faceFiles) && fr.knownFaces == old(fr.knownFaces)
      ensures ok && frame.Some? && saved && frame.value.features.None? ==>
        fr.knownFaces == old(fr.knownFaces) && faceFiles == old(faceFiles) - {FacePath(username)}
      ensures ok && frame.Some? && saved && frame.value.features.Some? ==>
        faceFiles == old(faceFiles)[FacePath(username) := frame.value] &&
        fr.knownFaces == Put(old(fr.knownFaces), KnownFace(username, FacePath(username), frame.value.features))
    {
      if ValidateRegistration(username, password, confirm).Some? {
        return false;
      }
      var success, _ := db.RegisterNewUser(username, password, now);
      if !success {
        return false;
      }
      currentUser, currentRole := Some(username), Some(User);
      currentUserId := db.GetUserId(username);
      assert db.usuarios[|db.usuarios| - 1].nombre == username;
      FindByNameIsTheRow(db.usuarios, username, |db.usuarios| - 1);
      var _ := RegisterNewFaceAutomatic(frame, saved);
      ok := true;
    }

    /**
     * register_new_face_automatic: capture, save `<user>.jpg`, and enrol the
     * features; when no features are found the saved file is removed and the
     * gallery is left as it was.
     */
    method RegisterNewFaceAutomatic(frame: Option<Frame>, saved: bool) returns (ok: bool)
      requires Valid()
      modifies this`faceFiles, fr
      ensures Valid()
      ensures ok <==> LoggedIn(currentUser) && frame.Some? && saved && frame.value.features.Some?
      ensures !LoggedIn(currentUser) || frame.None? || !saved ==>
        faceFiles == old(faceFiles) && fr.knownFaces == old(fr.knownFaces)
      ensures LoggedIn(currentUser) && frame.Some? && saved && frame.value.features.None? ==>
        fr.knownFaces == old(fr.knownFaces) && faceFiles == old(faceFiles) - {FacePath(currentUser.value)}
      ensures ok ==> (
        faceFiles == old(faceFiles)[FacePath(currentUser.value) := frame.value] &&
        fr.knownFaces == Put(old(fr.knownFaces), KnownFace(currentUser.value, FacePath(currentUser.value), frame.value.features)))
    {
      if !LoggedIn(currentUser) {
        return false;
      }
      if frame.None? {
        return false;
      }
      var path := FacePath(currentUser.value);
      if !saved {
        return false;
      }
      faceFiles := faceFiles[path := frame.value];
      var features := frame.value.features;
      if features.Some? {
        fr.knownFaces := Put(fr.knownFaces, KnownFace(currentUser.value, path, features));
        return true;
      }
      faceFiles := faceFiles - {path};
      return false;
    }

    /** register_new_face (user menu): save the capture and store its features, even when none were found. */
    method RegisterNewFace(frame: Option<Frame>, saved: bool)
      requires Valid()
      modifies this`faceFiles, fr
      ensures Valid()
      ensures !LoggedIn(currentUser) || frame.None? ==>
        faceFiles == old(faceFiles) && fr.knownFaces == old(fr.knownFaces)
      ensures LoggedIn(currentUser) && frame.Some? ==>
        fr.knownFaces == Put(old(fr.knownFaces), KnownFace(currentUser.value, FacePath(currentUser.value), frame.value.features)) &&
        faceFiles == (if saved then old(faceFiles)[FacePath(currentUser.value) := frame.value] else old(faceFiles))
    {
      if !LoggedIn(currentUser) || frame.None? {
        return;
      }
      var path := FacePath(currentUser.value);
      if saved {
        faceFiles := faceFiles[path := frame.value];
      }
      fr.knownFaces := Put(fr.knownFaces, KnownFace(currentUser.value, path, frame.value.features));
    }

    /**
     * verify_access: recognise the capture and report PERMITIDO for the
     * logged-in user or DENEGADO for the attempted name; the notifier logs
     * the access once the report is delivered. `decision` is what was reported.
     */
    method VerifyAccess(frame: Option<Frame>, imagePath: string, delivered: bool, now: nat)
      returns (decision: Option<AccessType>)
      requires Valid()
      modifies db
      ensures Valid()
      ensures !LoggedIn(currentUser) || frame.None? ==> decision.None? && unchanged(db)
      ensures LoggedIn(currentUser) && frame.Some? ==>
        decision == Some(AccessDecision(currentUser.value, Recognize(frame.value.features, fr.knownFaces, fr.norm)))
      ensures decision == Some(Permitido) ==>
        Recognize(frame.value.features, fr.knownFaces, fr.norm).name == currentUser.value &&
        Recognize(frame.value.features, fr.knownFaces, fr.norm).similarity > SimilarityThreshold
      ensures !email.senderConfigured || !delivered || !old(db.reachable) ==> unchanged(db)
      ensures db.reachable == old(db.reachable) && db.nextUserId == old(db.nextUserId)
      ensures decision.Some? && email.senderConfigured && delivered && old(db.reachable) ==>
        db.nextAccessId == old(db.nextAccessId) + 1
      ensures decision.Some? && email.senderConfigured && delivered && old(db.reachable) ==>
        var m := Recognize(frame.value.features, fr.knownFaces, fr.norm);
        var name := ReportedName(currentUser.value, m);
        var id := LoggedId(old(db.usuarios), true, name, decision.value);
        db.accesos == old(db.accesos) + [NewAccess(old(db.nextAccessId), id, name, decision.value, m.similarity, imagePath, now)] &&
        db.usuarios == LoggedUsers(old(db.usuarios), id, decision.value, now)
      ensures decision == Some(Denegado) && email.senderConfigured && delivered && old(db.reachable) ==>
        db.accesos[|db.accesos| - 1].usuarioId.None?
      ensures (
        decision == Some(Permitido) && email.senderConfigured && delivered && old(db.reachable) &&
        HasName(old(db.usuarios), currentUser.value)) ==>
        exists i :: 0 <= i < |old(db.usuarios)| && old(db.usuarios)[i].nombre == currentUser.value &&
          db.accesos[|db.accesos| - 1].usuarioId == Some(old(db.usuarios)[i].id)
    {
      if !LoggedIn(currentUser) || frame.None? {
        return None;
      }
      var m := fr.RecognizeFace(frame.value);
      var tipo := AccessDecision(currentUser.value, m);
      var name := ReportedName(currentUser.value, m);
      var _ := email.SendDetailedEmail(name, tipo, m.similarity, imagePath, delivered, now);
      decision := Some(tipo);
    }

    /**
     * toggle_user_status: `users` is the listing shown to the admin and
     * `userId` the typed id (None when it is not a number). The flag written is
     * the negation of the listed one, for that id only.
     */
    method ToggleUserStatus(users: seq<UserRow>, userId: Option<int>) returns (changed: bool)
      requires Valid()
      modifies db
      ensures Valid()
      ensures changed <==> (
        userId.Some? && old(db.reachable) &&
        exists i :: 0 <= i < |users| && users[i].id == userId.value)
      ensures !changed ==> unchanged(db)
      ensures changed ==> (
        exists i :: 0 <= i < |users| && users[i].id == userId.value &&
          (forall j :: 0 <= j < i ==> users[j].id != userId.value) &&
          db.usuarios == SetActive(old(db.usuarios), users[i].id, !users[i].activo))
      ensures db.accesos == old(db.accesos)
    {
      if userId.None? {
        return false;
      }
      var k := 0;
      while k < |users| && users[k].id != userId.value
        invariant 0 <= k <= |users|
        invariant forall j :: 0 <= j < k ==> users[j].id != userId.value
      {
        k := k + 1;
      }
      if k == |users| {
        return false;
      }
      if !db.reachable {
        return false;
      }
      changed := db.UpdateActive(users[k].id, !users[k].activo);
    }
  }
}

=== FILE: config.dfy ===
/** The constants of the system's configuration file that the model uses. */
module Config {
  /** Strict admission cutoff on the similarity score. */
  const SimilarityThreshold: real := 0.6

  /** Secret that confirms the destructive cleanup route of the admin panel. */
  const AdminPassword: string := "123456798"

  /** Directory holding one reference image per enrolled identity. */
  const KnownFacesDir: string := "usuarios_autorizados"

  /** The two roles: the keys of the role table and the values of the `rol` column. */
  datatype Role = User | Admin

  /** The permission list the role table grants to each role. */
  function Permissions(role: Role): seq<string>
  {
    match role
    case Admin => ["admin_panel", "view_all_users", "voice_search", "view_all_access_history", "manage_users"]
    case User => ["register_face", "verify_access", "view_own_history"]
  }
}

=== FILE: database.dfy ===
/**
 * The MySQL store of the modular system (clases/database.py) as in-memory
 * tables: `usuarios` and `accesos` are sequences of rows in insertion order,
 * and the AUTO_INCREMENT counters are explicit fields. Every operation first
 * opens a connection; `reachable` says whether that succeeds, and when it
 * does not the operation reports failure and changes nothing.
 *
 * Clock readings (`datetime.now()`, `CURRENT_TIMESTAMP`) are parameters `now`.
 */
module Database {
  import opened Wrappers
  import Config

  /** The `tipo_acceso` enum. */
  datatype AccessType = Permitido | Denegado

  /**
   * One `usuarios` row. `passwordHash` is None when the row was inserted
   * without a password (the program.py schema has no such column).
   */
  datatype UserRow = UserRow(
    id: nat,
    nombre: string,
    passwordHash: Option<string>,
    fechaRegistro: nat,
    activo: bool,
    ultimoAcceso: Option<nat>,
    rol: Config.Role)

  /** One `accesos` row; `usuarioId` is the nullable foreign key into `usuarios`. */
  datatype AccessRow = AccessRow(
    id: nat,
    usuarioId: Option<nat>,
    nombreUsuario: string,
    tipo: AccessType,
    fechaAcceso: nat,
    similitud: real,
    imagenPath: string)

  const AdminName: string := "admin"
  const TempPassword: string := "temp_password"

  const ConnectionError: string := "Error de conexión a la base de datos"
  const DuplicateName: string := "El nombre de usuario ya existe"

  function RegisteredMessage(username: string): string
  {
    "Usuario '" + username + "' registrado exitosamente"
  }

  /* ---------------------------------------------------------------------
   * Table predicates
   * ------------------------------------------------------------------- */

  predicate HasName(users: seq<UserRow>, name: string)
  {
    exists i :: 0 <= i < |users| && users[i].nombre == name
  }

  predicate HasId(users: seq<UserRow>, id: nat)
  {
    exists i :: 0 <= i < |users| && users[i].id == id
  }

  /** The UNIQUE constraint on `nombre`. */
  predicate UniqueNames(users: seq<UserRow>)
  {
    forall i, j :: 0 <= i < |users| && 0 <= j < |users| && users[i].nombre == users[j].nombre ==> i == j
  }

  /** The PRIMARY KEY on `usuarios.id`, with every id issued by the counter. */
  predicate UserIdsIssued(users: seq<UserRow>, nextId: nat)
  {
    (forall i :: 0 <= i < |users| ==> 0 < users[i].id < nextId) &&
    (forall i, j :: 0 <= i < |users| && 0 <= j < |users| && users[i].id == users[j].id ==> i == j)
  }

  /** The PRIMARY KEY on `accesos.id`, with every id issued by the counter. */
  predicate AccessIdsIssued(accesses: seq<AccessRow>, nextId: nat)
  {
    (forall i :: 0 <= i < |accesses| ==> 0 < accesses[i].id < nextId) &&
    (forall i, j :: 0 <= i < |accesses| && 0 <= j < |accesses| && accesses[i].id == accesses[j].id ==> i == j)
  }

  /** The FOREIGN KEY `accesos.usuario_id` REFERENCES `usuarios(id)`. */
  predicate ForeignKeys(accesses: seq<AccessRow>, users: seq<UserRow>)
  {
    forall i :: 0 <= i < |accesses| && accesses[i].usuarioId.Some? ==> HasId(users, accesses[i].usuarioId.value)
  }

  /** The constraints the MySQL schema enforces on the two tables. */
  predicate TablesOk(users: seq<UserRow>, accesses: seq<AccessRow>, nextUserId: nat, nextAccessId: nat)
  {
    0 < nextUserId && 0 < nextAccessId &&
    UniqueNames(users) && UserIdsIssued(users, nextUserId) &&
    AccessIdsIssued(accesses, nextAccessId) && ForeignKeys(accesses, users)
  }

  /** Python truthiness of an id: None and 0 are false. */
  predicate Truthy(id: Option<nat>)
  {
    id.Some? && id.value != 0
  }

  /* ---------------------------------------------------------------------
   * Queries
   * ------------------------------------------------------------------- */

  /** `SELECT ... FROM usuarios WHERE nombre = %s` followed by `fetchone()`. */
  function FindByName(users: seq<UserRow>, name: string): (r: Option<UserRow>)
    ensures r.Some? <==> HasName(users, name)
    ensures r.Some? ==> r.value in users && r.value.nombre == name
  {
    if |users| == 0 then None
    else if users[0].nombre == name then Some(users[0])
    else
      var r := FindByName(users[1..], name);
      assert HasName(users, name) ==> HasName(users[1..], name) by {
        if HasName(users, name) {
          var i :| 0 <= i < |users| && users[i].nombre == name;
          assert users[1..][i - 1].nombre == name;
        }
      }
      r
  }

  /** `... WHERE nombre = %s AND activo = TRUE` followed by `fetchone()`. */
  function FindActiveByName(users: seq<UserRow>, name: string): (r: Option<UserRow>)
    ensures r.Some? <==> exists i :: 0 <= i < |users| && users[i].nombre == name && users[i].activo
    ensures r.Some? ==> r.value in users && r.value.nombre == name && r.value.activo
  {
    if |users| == 0 then None
    else if users[0].nombre == name && users[0].activo then Some(users[0])
    else
      var r := FindActiveByName(users[1..], name);
      assert (exists i :: 0 <= i < |users| && users[i].nombre == name && users[i].activo) ==>
             (exists i :: 0 <= i < |users[1..]| && users[1..][i].nombre == name && users[1..][i].activo) by {
        if exists i :: 0 <= i < |users| && users[i].nombre == name && users[i].activo {
          var i :| 0 <= i < |users| && users[i].nombre == name && users[i].activo;
          assert users[1..][i - 1] == users[i];
        }
      }
      r
  }

  /** Under the UNIQUE constraint, the row `fetchone()` returns is the only row with that name. */
  lemma FindByNameIsTheRow(users: seq<UserRow>, name: string, i: nat)
    requires UniqueNames(users)
    requires i < |users| && users[i].nombre == name
    ensures FindByName(users, name) == Some(users[i])
  {
    var r := FindByName(users, name);
    var j :| 0 <= j < |users| && users[j] == r.value;
  }

  /** Number of rows carrying a name. */
  function CountName(users: seq<UserRow>, name: string): (n: nat)
    ensures n <= |users|
    ensures n == 0 <==> !HasName(users, name)
  {
    if |users| == 0 then 0
    else
      var n := (if users[0].nombre == name then 1 else 0) + CountName(users[1..], name);
      assert HasName(users, name) <==> users[0].nombre == name || HasName(users[1..], name) by {
        if HasName(users, name) && users[0].nombre != name {
          var i :| 0 <= i < |users| && users[i].nombre == name;
          assert users[1..][i - 1].nombre == name;
        }
        if HasName(users[1..], name) {
          var i :| 0 <= i < |users[1..]| && users[1..][i].nombre == name;
          assert users[i + 1].nombre == name;
        }
      }
      n
  }

  lemma {:induction false} CountNameAppend(users: seq<UserRow>, row: UserRow, name: string)
    ensures CountName(users + [row], name) == CountName(users, name) + (if row.nombre == name then 1 else 0)
  {
    if |users| > 0 {
      assert (users + [row])[1..] == users[1..] + [row];
      CountNameAppend(users[1..], row, name);
    }
  }

  /** Under the UNIQUE constraint a present name occurs exactly once. */
  lemma {:induction false} UniqueNameCountsOnce(users: seq<UserRow>, name: string)
    requires UniqueNames(users) && HasName(users, name)
    ensures CountName(users, name) == 1
  {
    if users[0].nombre == name {
      assert !HasName(users[1..], name);
    } else {
      var i :| 0 <= i < |users| && users[i].nombre == name;
      assert users[1..][i - 1].nombre == name;
      UniqueNameCountsOnce(users[1..], name);
    }
  }

  /* ---------------------------------------------------------------------
   * Row updates
   * ------------------------------------------------------------------- */

  /** A row as INSERT leaves it: `fecha_registro` now, `activo` TRUE, no last access. */
  function NewUser(id: nat, name: string, password: Option<string>, now: nat, rol: Config.Role): UserRow
  {
    UserRow(id, name, password, now, true, None, rol)
  }

  /** The counter after a conditional insert of `name`. */
  function NextIdAfter(users: seq<UserRow>, nextId: nat, name: string): nat
  {
    if HasName(users, name) then nextId else nextId + 1
  }

  /** sync_user: insert `name` only when no row carries it. */
  function SyncRows(users: seq<UserRow>, nextId: nat, name: string, password: Option<string>, now: nat): (r: seq<UserRow>)
    ensures HasName(r, name)
    ensures HasName(users, name) ==> r == users
    ensures !HasName(users, name) ==> |r| == |users| + 1 && r[..|users|] == users && r[|users|].nombre == name
  {
    if HasName(users, name) then users
    else
      var r := users + [NewUser(nextId, name, password, now, Config.User)];
      assert r[|users|].nombre == name;
      r
  }

  /** Syncing the same name twice is the same as syncing it once. */
  lemma SyncIdempotent(users: seq<UserRow>, n1: nat, n2: nat, name: string, p1: Option<string>, p2: Option<string>, t1: nat, t2: nat)
    ensures SyncRows(SyncRows(users, n1, name, p1, t1), n2, name, p2, t2) == SyncRows(users, n1, name, p1, t1)
  {
  }

  /** After syncing a name into a table with unique names, exactly one row carries it. */
  lemma SyncLeavesOneRow(users: seq<UserRow>, nextId: nat, name: string, password: Option<string>, now: nat)
    requires UniqueNames(users)
    ensures CountName(SyncRows(users, nextId, name, password, now), name) == 1
  {
    if HasName(users, name) {
      UniqueNameCountsOnce(users, name);
    } else {
      CountNameAppend(users, NewUser(nextId, name, password, now, Config.User), name);
    }
  }

  /** The user table and its counter after a series of conditional inserts. */
  datatype Synced = Synced(users: seq<UserRow>, nextId: nat)

  /** A conditional insert keeps the UNIQUE constraint. */
  lemma SyncKeepsUniqueNames(users: seq<UserRow>, nextId: nat, name: string, password: Option<string>, now: nat)
    requires UniqueNames(users)
    ensures UniqueNames(SyncRows(users, nextId, name, password, now))
  {
    if !HasName(users, name) {
      var r := SyncRows(users, nextId, name, password, now);
      assert forall i :: 0 <= i < |users| ==> r[i] == users[i];
    }
  }

  /** sync_user applied to each name in turn. */
  function SyncMany(users: seq<UserRow>, nextId: nat, names: seq<string>, password: Option<string>, now: nat): (r: Synced)
    ensures forall k :: 0 <= k < |names| ==> HasName(r.users, names[k])
    ensures |users| <= |r.users| && r.users[..|users|] == users
    ensures forall i :: |users| <= i < |r.users| ==> exists k :: 0 <= k < |names| && r.users[i].nombre == names[k]
    ensures UniqueNames(users) ==> UniqueNames(r.users)
  {
    if |names| == 0 then Synced(users, nextId)
    else
      var init := names[..|names| - 1];
      var prev := SyncMany(users, nextId, init, password, now);
      var name := names[|names| - 1];
      var r := SyncRows(prev.users, prev.nextId, name, password, now);
      assert forall k :: 0 <= k < |init| ==> HasName(r, names[k]) by {
        forall k | 0 <= k < |init|
          ensures HasName(r, names[k])
        {
          assert init[k] == names[k];
          var i :| 0 <= i < |prev.users| && prev.users[i].nombre == names[k];
          assert r[i] == prev.users[i];
        }
      }
      assert r[..|users|] == users by {
        assert r[..|prev.users|][..|users|] == r[..|users|];
      }
      assert forall i :: |users| <= i < |r| ==> exists k :: 0 <= k < |names| && r[i].nombre == names[k] by {
        forall i | |users| <= i < |r|
          ensures exists k :: 0 <= k < |names| && r[i].nombre == names[k]
        {
          if i < |prev.users| {
            assert r[i] == prev.users[i];
            var k :| 0 <= k < |init| && prev.users[i].nombre == init[k];
            assert init[k] == names[k];
          } else {
            assert r[i].nombre == names[|names| - 1];
          }
        }
      }
      assert UniqueNames(users) ==> UniqueNames(r) by {
        if UniqueNames(users) {
          SyncKeepsUniqueNames(prev.users, prev.nextId, name, password, now);
        }
      }
      Synced(r, NextIdAfter(prev.users, prev.nextId, name))
  }

  /** Inserting a fresh name with the next counter value keeps the table constraints. */
  lemma InsertKeepsTablesOk(users: seq<UserRow>, accesses: seq<AccessRow>, nextUserId: nat, nextAccessId: nat, row: UserRow)
    requires TablesOk(users, accesses, nextUserId, nextAccessId)
    requires !HasName(users, row.nombre) && row.id == nextUserId
    ensures TablesOk(users + [row], accesses, nextUserId + 1, nextAccessId)
  {
    var r := users + [row];
    forall i | 0 <= i < |accesses| && accesses[i].usuarioId.Some?
      ensures HasId(r, accesses[i].usuarioId.value)
    {
      var k :| 0 <= k < |users| && users[k].id == accesses[i].usuarioId.value;
      assert r[k] == users[k];
    }
  }

  /** UPDATE ... SET password_hash = admin password, rol = 'admin' WHERE nombre = 'admin'. */
  function PromoteAdmin(users: seq<UserRow>): (r: seq<UserRow>)
    ensures |r| == |users|
    ensures forall i :: 0 <= i < |r| ==> r[i].id == users[i].id && r[i].nombre == users[i].nombre
    ensures forall i :: 0 <= i < |r| && users[i].nombre != AdminName ==> r[i] == users[i]
    ensures forall i :: 0 <= i < |r| && users[i].nombre == AdminName ==>
      r[i].rol == Config.Admin && r[i].passwordHash == Some(Config.AdminPassword)
  {
    seq(|users|, i requires 0 <= i < |users| =>
      if users[i].nombre == AdminName
      then users[i].(passwordHash := Some(Config.AdminPassword), rol := Config.Admin)
      else users[i])
  }

  /** The row create_user_table guarantees: named 'admin', role admin, the configured password. */
  predicate IsAdminRow(row: UserRow)
  {
    row.nombre == AdminName && row.rol == Config.Admin && row.passwordHash == Some(Config.AdminPassword)
  }

  /** create_user_table's guarantee: insert the admin row when absent, reset its password and role otherwise. */
  function EnsureAdmin(users: seq<UserRow>, nextId: nat, now: nat): (r: seq<UserRow>)
    ensures exists i :: 0 <= i < |r| && IsAdminRow(r[i])
    ensures HasName(users, AdminName) ==> |r| == |users|
    ensures HasName(users, AdminName) ==> forall i :: 0 <= i < |r| ==>
      r[i].id == users[i].id && r[i].nombre == users[i].nombre &&
      (users[i].nombre != AdminName ==> r[i] == users[i]) &&
      (users[i].nombre == AdminName ==> IsAdminRow(r[i]))
    ensures !HasName(users, AdminName) ==> |r| == |users| + 1 && r[..|users|] == users
  {
    if HasName(users, AdminName) then
      var r := PromoteAdmin(users);
      var i :| 0 <= i < |users| && users[i].nombre == AdminName;
      assert r[i].nombre == AdminName;
      r
    else
      var r := users + [NewUser(nextId, AdminName, Some(Config.AdminPassword), now, Config.Admin)];
      assert r[|users|].nombre == AdminName;
      r
  }

  lemma EnsureAdminKeepsTablesOk(users: seq<UserRow>, accesses: seq<AccessRow>, nextUserId: nat, nextAccessId: nat, now: nat)
    requires TablesOk(users, accesses, nextUserId, nextAccessId)
    ensures TablesOk(EnsureAdmin(users, nextUserId, now), accesses, NextIdAfter(users, nextUserId, AdminName), nextAccessId)
  {
    if HasName(users, AdminName) {
      var r := PromoteAdmin(users);
      forall i | 0 <= i < |accesses| && accesses[i].usuarioId.Some?
        ensures HasId(r, accesses[i].usuarioId.value)
      {
        var k :| 0 <= k < |users| && users[k].id == accesses[i].usuarioId.value;
        assert r[k].id == users[k].id;
      }
    } else {
      InsertKeepsTablesOk(users, accesses, nextUserId, nextAccessId,
        NewUser(nextUserId, AdminName, Some(Config.AdminPassword), now, Config.Admin));
    }
  }

  /** UPDATE usuarios SET ultimo_acceso = now WHERE id = %s: only that row's last access changes. */
  function Touch(users: seq<UserRow>, id: nat, now: nat): (r: seq<UserRow>)
    ensures |r| == |users|
    ensures forall i :: 0 <= i < |r| ==> r[i].(ultimoAcceso := users[i].ultimoAcceso) == users[i]
    ensures forall i :: 0 <= i < |r| ==> r[i].ultimoAcceso == (if users[i].id == id then Some(now) else users[i].ultimoAcceso)
  {
    seq(|users|, i requires 0 <= i < |users| =>
      if users[i].id == id then users[i].(ultimoAcceso := Some(now)) else users[i])
  }

  /** UPDATE usuarios SET activo = %s WHERE id = %s: only that row's flag changes. */
  function SetActive(users: seq<UserRow>, id: nat, activo: bool): (r: seq<UserRow>)
    ensures |r| == |users|
    ensures forall i :: 0 <= i < |r| ==> r[i].(activo := users[i].activo) == users[i]
    ensures forall i :: 0 <= i < |r| ==> r[i].activo == (if users[i].id == id then activo else users[i].activo)
  {
    seq(|users|, i requires 0 <= i < |users| =>
      if users[i].id == id then users[i].(activo := activo) else users[i])
  }

  /** An update that keeps every row's id and name keeps the table constraints. */
  lemma SameKeysKeepTablesOk(users: seq<UserRow>, r: seq<UserRow>, accesses: seq<AccessRow>, nextUserId: nat, nextAccessId: nat)
    requires TablesOk(users, accesses, nextUserId, nextAccessId)
    requires |r| == |users|
    requires forall i :: 0 <= i < |r| ==> r[i].id == users[i].id && r[i].nombre == users[i].nombre
    ensures TablesOk(r, accesses, nextUserId, nextAccessId)
  {
    forall i | 0 <= i < |accesses| && accesses[i].usuarioId.Some?
      ensures HasId(r, accesses[i].usuarioId.value)
    {
      var k :| 0 <= k < |users| && users[k].id == accesses[i].usuarioId.value;
      assert r[k].id == users[k].id;
    }
  }

  /** Appending an event under the next id whose user reference resolves keeps the table constraints. */
  lemma AppendAccessKeepsTablesOk(users: seq<UserRow>, accesses: seq<AccessRow>, nextUserId: nat, nextAccessId: nat, row: AccessRow)
    requires TablesOk(users, accesses, nextUserId, nextAccessId)
    requires row.id == nextAccessId && ReferenceOk(users, row.usuarioId)
    ensures TablesOk(users, accesses + [row], nextUserId, nextAccessId + 1)
  {
    var r := accesses + [row];
    assert forall i :: 0 <= i < |accesses| ==> r[i] == accesses[i];
    assert r[|accesses|] == row;
  }

  /** A row passes the credential check: same name, active, same stored password. */
  predicate Admits(row: UserRow, username: string, password: string)
  {
    row.nombre == username && row.activo && row.passwordHash == Some(password)
  }

  /** The row log_access inserts. */
  function NewAccess(id: nat, usuarioId: Option<nat>, nombre: string, tipo: AccessType, similitud: real, imagenPath: string, now: nat): AccessRow
  {
    AccessRow(id, usuarioId, nombre, tipo, now, similitud, imagenPath)
  }

  /** Whether the INSERT into `accesos` passes the foreign-key check. */
  predicate ReferenceOk(users: seq<UserRow>, usuarioId: Option<nat>)
  {
    usuarioId.None? || HasId(users, usuarioId.value)
  }

  /** The `usuarios` table after log_access: last access refreshed only for an admitted access with a truthy id. */
  function LoggedUsers(users: seq<UserRow>, usuarioId: Option<nat>, tipo: AccessType, now: nat): seq<UserRow>
  {
    if tipo == Permitido && Truthy(usuarioId) then Touch(users, usuarioId.value, now) else users
  }

  /** log_access changes a last access only for an admitted access with a truthy id, and only on that id's row. */
  lemma LoggedUsersOnlyTouchesAdmitted(users: seq<UserRow>, usuarioId: Option<nat>, tipo: AccessType, now: nat)
    ensures |LoggedUsers(users, usuarioId, tipo, now)| == |users|
    ensures forall i :: 0 <= i < |users| ==>
      LoggedUsers(users, usuarioId, tipo, now)[i].(ultimoAcceso := users[i].ultimoAcceso) == users[i]
    ensures forall i :: 0 <= i < |users| && LoggedUsers(users, usuarioId, tipo, now)[i] != users[i] ==>
      tipo == Permitido && Truthy(usuarioId) && users[i].id == usuarioId.value &&
      LoggedUsers(users, usuarioId, tipo, now)[i].ultimoAcceso == Some(now)
  {
  }

  /* ---------------------------------------------------------------------
   * The store
   * ------------------------------------------------------------------- */

  class DatabaseManager {
    var usuarios: seq<UserRow>
    var accesos: seq<AccessRow>
    var nextUserId: nat
    var nextAccessId: nat
    /** Whether `mysql.connector.connect` succeeds. */
    var reachable: bool

    ghost predicate Valid()
      reads this
    {
      TablesOk(usuarios, accesos, nextUserId, nextAccessId)
    }

    constructor(usuarios: seq<UserRow>, accesos: seq<AccessRow>, nextUserId: nat, nextAccessId: nat, reachable: bool)
      requires TablesOk(usuarios, accesos, nextUserId, nextAccessId)
      ensures Valid()
      ensures this.usuarios == usuarios && this.accesos == accesos
      ensures this.nextUserId == nextUserId && this.nextAccessId == nextAccessId
      ensures this.reachable == reachable
    {
      this.usuarios := usuarios;
      this.accesos := accesos;
      this.nextUserId := nextUserId;
      this.nextAccessId := nextAccessId;
      this.reachable := reachable;
    }

    /** create_user_table (the admin guarantee; the DDL is outside the model). */
    method CreateUserTable(now: nat) returns (ok: bool)
      requires Valid()
      modifies this
      ensures Valid()
      ensures ok == reachable && reachable == old(reachable)
      ensures !ok ==> unchanged(this)
      ensures ok ==> usuarios == EnsureAdmin(old(usuarios), old(nextUserId), now)
      ensures ok ==> nextUserId == NextIdAfter(old(usuarios), old(nextUserId), AdminName)
      ensures accesos == old(accesos) && nextAccessId == old(nextAccessId)
    {
      if !reachable {
        return false;
      }
      EnsureAdminKeepsTablesOk(usuarios, accesos, nextUserId, nextAccessId, now);
      var next := NextIdAfter(usuarios, nextUserId, AdminName);
      usuarios := EnsureAdmin(usuarios, nextUserId, now);
      nextUserId := next;
      ok := true;
    }

    /** register_new_user: insert a 'user' row for a name not yet taken. */
    method RegisterNewUser(username: string, password: string, now: nat) returns (ok: bool, message: string)
      requires Valid()
      modifies this
      ensures Valid()
      ensures reachable == old(reachable)
      ensures ok <==> old(reachable) && !HasName(old(usuarios), username)
      ensures !old(reachable) ==> message == ConnectionError
      ensures old(reachable) && HasName(old(usuarios), username) ==> message == DuplicateName
      ensures !ok ==> unchanged(this)
      ensures ok ==> message == RegisteredMessage(username)
      ensures ok ==> usuarios == old(usuarios) + [NewUser(old(nextUserId), username, Some(password), now, Config.User)]
      ensures ok ==> nextUserId == old(nextUserId) + 1
      ensures accesos == old(accesos) && nextAccessId == old(nextAccessId)
    {
      if !reachable {
        return false, ConnectionError;
      }
      if FindByName(usuarios, username).Some? {
        return false, DuplicateName;
      }
      var row := NewUser(nextUserId, username, Some(password), now, Config.User);
      InsertKeepsTablesOk(usuarios, accesos, nextUserId, nextAccessId, row);
      usuarios := usuarios + [row];
      nextUserId := nextUserId + 1;
      ok, message := true, RegisteredMessage(username);
    }

    /** verify_user_credentials: an active row with that name whose password equals the given one. */
    method VerifyUserCredentials(username: string, password: string) returns (ok: bool, user: Option<UserRow>)
      requires Valid()
      ensures ok <==> user.Some?
      ensures ok <==> reachable && exists i :: 0 <= i < |usuarios| && Admits(usuarios[i], username, password)
      ensures ok ==> user.value in usuarios && Admits(user.value, username, password)
    {
      if !reachable {
        return false, None;
      }
      var row := FindActiveByName(usuarios, username);
      if row.None? {
        return false, None;
      }
      if row.value.passwordHash == Some(password) {
        ok, user := true, row;
      } else {
        ok, user := false, None;
        forall i | 0 <= i < |usuarios| && usuarios[i].nombre == username && usuarios[i].activo
          ensures usuarios[i].passwordHash != Some(password)
        {
          var j :| 0 <= j < |usuarios| && usuarios[j] == row.value;
        }
      }
    }

    /** get_user_id: the id of the row with that name, None when there is none. */
    method GetUserId(username: string) returns (id: Option<nat>)
      requires Valid()
      ensures id.Some? <==> reachable && HasName(usuarios, username)
      ensures id.Some? ==> 0 < id.value
      ensures id.Some? ==> exists i :: 0 <= i < |usuarios| && usuarios[i].nombre == username && usuarios[i].id == id.value
    {
      if !reachable {
        return None;
      }
      var row := FindByName(usuarios, username);
      if row.Some? {
        id := Some(row.value.id);
      } else {
        id := None;
      }
    }

    /** sync_user: make sure a row with that name exists (placeholder password). */
    method SyncUser(username: string, now: nat) returns (ok: bool)
      requires Valid()
      modifies this
      ensures Valid()
      ensures ok == reachable && reachable == old(reachable)
      ensures !ok ==> unchanged(this)
      ensures ok ==> usuarios == SyncRows(old(usuarios), old(nextUserId), username, Some(TempPassword), now)
      ensures ok ==> nextUserId == NextIdAfter(old(usuarios), old(nextUserId), username)
      ensures accesos == old(accesos) && nextAccessId == old(nextAccessId)
    {
      if !reachable {
        return false;
      }
      InsertRowIfAbsent(username, Some(TempPassword), now);
      ok := true;
    }

    /** The conditional insert shared by both variants of the user sync. */
    method InsertRowIfAbsent(username: string, password: Option<string>, now: nat)
      requires Valid()
      modifies this
      ensures Valid()
      ensures usuarios == SyncRows(old(usuarios), old(nextUserId), username, password, now)
      ensures nextUserId == NextIdAfter(old(usuarios), old(nextUserId), username)
      ensures accesos == old(accesos) && nextAccessId == old(nextAccessId) && reachable == old(reachable)
    {
      if FindByName(usuarios, username).None? {
        var row := NewUser(nextUserId, username, password, now, Config.User);
        InsertKeepsTablesOk(usuarios, accesos, nextUserId, nextAccessId, row);
        usuarios := usuarios + [row];
        nextUserId := nextUserId + 1;
      }
    }

    /**
     * log_access: append one `accesos` row; refresh the user's last access on an
     * admitted access with a truthy id. An id that references no row fails the
     * foreign-key check and the transaction is not committed.
     */
    method LogAccess(usuarioId: Option<nat>, nombreUsuario: string, tipo: AccessType, similitud: real, imagenPath: string, now: nat)
      returns (ok: bool)
      requires Valid()
      modifies this
      ensures Valid()
      ensures reachable == old(reachable)
      ensures ok <==> old(reachable) && ReferenceOk(old(usuarios), usuarioId)
      ensures !ok ==> unchanged(this)
      ensures ok ==> accesos == old(accesos) + [NewAccess(old(nextAccessId), usuarioId, nombreUsuario, tipo, similitud, imagenPath, now)]
      ensures ok ==> nextAccessId == old(nextAccessId) + 1
      ensures ok ==> usuarios == LoggedUsers(old(usuarios), usuarioId, tipo, now)
      ensures nextUserId == old(nextUserId)
    {
      if !reachable {
        return false;
      }
      if usuarioId.Some? {
        var index := FindId(usuarioId.value);
        if index.None? {
          return false;
        }
      }
      var row := NewAccess(nextAccessId, usuarioId, nombreUsuario, tipo, similitud, imagenPath, now);
      var users := LoggedUsers(usuarios, usuarioId, tipo, now);
      AppendAccessKeepsTablesOk(usuarios, accesos, nextUserId, nextAccessId, row);
      SameKeysKeepTablesOk(usuarios, users, accesos + [row], nextUserId, nextAccessId + 1);
      accesos := accesos + [row];
      nextAccessId := nextAccessId + 1;
      usuarios := users;
      ok := true;
    }

    /** The index of the row with a given id, if any. */
    method FindId(id: nat) returns (index: Option<nat>)
      ensures index.Some? ==> index.value < |usuarios| && usuarios[index.value].id == id
      ensures index.None? <==> !HasId(usuarios, id)
    {
      var k := 0;
      while k < |usuarios|
        invariant 0 <= k <= |usuarios|
        invariant forall j :: 0 <= j < k ==> usuarios[j].id != id
      {
        if usuarios[k].id == id {
          return Some(k);
        }
        k := k + 1;
      }
      return None;
    }

    /** UPDATE usuarios SET activo = %s WHERE id = %s. */
    method UpdateActive(id: nat, activo: bool) returns (ok: bool)
      requires Valid()
      modifies this
      ensures Valid()
      ensures ok == reachable && reachable == old(reachable)
      ensures usuarios == (if ok then SetActive(old(usuarios), id, activo) else old(usuarios))
      ensures accesos == old(accesos) && nextUserId == old(nextUserId) && nextAccessId == old(nextAccessId)
    {
      if !reachable {
        return false;
      }
      var users := SetActive(usuarios, id, activo);
      SameKeysKeepTablesOk(usuarios, users, accesos, nextUserId, nextAccessId);
      usuarios := users;
      ok := true;
    }

    /** TRUNCATE TABLE accesos (the counter restarts). */
    method TruncateAccesos()
      requires Valid()
      modifies this
      ensures Valid()
      ensures accesos == [] && nextAccessId == 1
      ensures usuarios == old(usuarios) && nextUserId == old(nextUserId) && reachable == old(reachable)
    {
      accesos := [];
      nextAccessId := 1;
    }

    /** TRUNCATE TABLE accesos, then TRUNCATE TABLE usuarios. */
    method TruncateAll()
      requires Valid()
      modifies this
      ensures Valid()
      ensures accesos == [] && usuarios == [] && nextAccessId == 1 && nextUserId == 1
      ensures reachable == old(reachable)
    {
      TruncateAccesos();
      usuarios := [];
      nextUserId := 1;
    }
  }
}

=== FILE: face_recognition.dfy ===
/**
 * Face matching of the modular system (clases/reconocimiento_fac.py): the
 * cosine score between two histogram feature vectors, the best match of a
 * probe against the gallery of known faces, and the loading of that gallery
 * from a directory of reference images.
 *
 * OpenCV is outside the model: a captured or stored image is abstracted to
 * what the feature extractor returns for it (`Frame`), and the Euclidean norm
 * (`np.linalg.norm`) is a parameter, so every property below either holds for
 * any norm function or is stated for one that is Euclidean.
 */
module FaceRecognition {
  import opened Wrappers
  import opened Config
  import Database

  type Features = seq<real>

  /** The vector norm the score divides by. */
  type Norm = Features -> real

  /** A captured image, seen only through the features extraction yields (None: no face found). */
  datatype Frame = Frame(features: Option<Features>)

  /** One gallery entry: `known_faces[name] = {'path': ..., 'features': ...}`. */
  datatype KnownFace = KnownFace(name: string, path: string, features: Option<Features>)

  /** One file of the reference directory; `image` is None when it cannot be decoded. */
  datatype ImageFile = ImageFile(filename: string, image: Option<Frame>)

  /** The result of a recognition: best name and its score. */
  datatype Match = Match(name: string, similarity: real)

  /** Name reported when nothing matches. */
  const Unknown: string := "Desconocido"

  /* ---------------------------------------------------------------------
   * Similarity score
   * ------------------------------------------------------------------- */

  function Min(x: nat, y: nat): nat { if x <= y then x else y }

  /** Dot product of two vectors of equal length. */
  function Dot(a: Features, b: Features): real
    requires |a| == |b|
  {
    if |a| == 0 then 0.0 else a[0] * b[0] + Dot(a[1..], b[1..])
  }

  /** A norm is Euclidean when it is the non-negative square root of `Dot(v, v)`. */
  ghost predicate EuclideanNorm(norm: Norm)
  {
    forall v: Features :: 0.0 <= norm(v) && norm(v) * norm(v) == Dot(v, v)
  }

  /** compare_faces: cosine of the two vectors cut to their common length, clamped at 0. */
  function CompareFaces(f1: Option<Features>, f2: Option<Features>, norm: Norm): (r: real)
    ensures 0.0 <= r
    ensures f1.None? || f2.None? ==> r == 0.0
    ensures f1.Some? && f2.Some? ==>
      var m := Min(|f1.value|, |f2.value|);
      (norm(f1.value[..m]) == 0.0 || norm(f2.value[..m]) == 0.0) ==> r == 0.0
  {
    if f1.None? || f2.None? then 0.0
    else
      var m := Min(|f1.value|, |f2.value|);
      var feat1, feat2 := f1.value[..m], f2.value[..m];
      var norm1, norm2 := norm(feat1), norm(feat2);
      if norm1 == 0.0 || norm2 == 0.0 then 0.0
      else
        var similarity := Dot(feat1, feat2) / (norm1 * norm2);
        if similarity > 0.0 then similarity else 0.0
  }

  lemma {:induction false} DotCommutes(a: Features, b: Features)
    requires |a| == |b|
    ensures Dot(a, b) == Dot(b, a)
  {
    if |a| > 0 {
      DotCommutes(a[1..], b[1..]);
    }
  }

  /** The score is symmetric: the dot product and the product of the norms commute. */
  lemma CompareFacesSymmetric(f1: Option<Features>, f2: Option<Features>, norm: Norm)
    ensures CompareFaces(f1, f2, norm) == CompareFaces(f2, f1, norm)
  {
    if f1.Some? && f2.Some? {
      var m := Min(|f1.value|, |f2.value|);
      DotCommutes(f1.value[..m], f2.value[..m]);
      assert norm(f1.value[..m]) * norm(f2.value[..m]) == norm(f2.value[..m]) * norm(f1.value[..m]);
    }
  }

  /** Only the first min(|a|, |b|) entries take part: entries past the shorter length never matter. */
  lemma TrailingEntriesIgnored(a: Features, b: Features, extra: Features, norm: Norm)
    requires |a| <= |b|
    ensures CompareFaces(Some(a), Some(b + extra), norm) == CompareFaces(Some(a), Some(b), norm)
    ensures CompareFaces(Some(b + extra), Some(a), norm) == CompareFaces(Some(b), Some(a), norm)
  {
    assert (b + extra)[..|a|] == b[..|a|];
  }

  lemma {:induction false} SumOfSquaresNonNegative(v: Features)
    ensures 0.0 <= Dot(v, v)
  {
    if |v| > 0 {
      SumOfSquaresNonNegative(v[1..]);
    }
  }

  /** A vector of non-zero length scores exactly 1 against itself. */
  lemma SelfScoreIsOne(v: Features, norm: Norm)
    requires EuclideanNorm(norm)
    requires norm(v) != 0.0
    ensures CompareFaces(Some(v), Some(v), norm) == 1.0
  {
    assert v[..|v|] == v;
    var n := norm(v);
    ProductQuotient(Dot(v, v), n, n);
  }

  lemma MulNonNegative(x: real, y: real)
    requires 0.0 <= x && 0.0 <= y
    ensures 0.0 <= x * y
  {
  }

  lemma MulPositive(x: real, y: real)
    requires 0.0 < x && 0.0 < y
    ensures 0.0 < x * y
  {
  }

  lemma SquareNonNegative(x: real)
    ensures 0.0 <= x * x
  {
    if x < 0.0 {
      MulPositive(-x, -x);
      assert x * x == (-x) * (-x);
    }
  }

  lemma SquarePositive(x: real)
    requires x != 0.0
    ensures 0.0 < x * x
  {
    if x < 0.0 {
      assert x * x == (-x) * (-x);
      MulPositive(-x, -x);
    } else {
      MulPositive(x, x);
    }
  }

  lemma ProductQuotient(d: real, x: real, y: real)
    requires 0.0 < x && 0.0 < y && d == x * y
    ensures d / (x * y) == 1.0
  {
    MulPositive(x, y);
  }

  lemma QuotientAtMostOne(d: real, k: real)
    requires 0.0 < k && d <= k
    ensures d / k <= 1.0
  {
    assert (d / k) * k == d;
  }

  /** If u*u <= p*p and p is non-negative, then u <= p. */
  lemma SquareBound(u: real, p: real)
    requires 0.0 <= p && u * u <= p * p
    ensures u <= p
  {
    if u > p {
      assert (u - p) * (u + p) == u * u - p * p;
      MulPositive(u - p, u + p);
    }
  }

  /** The cross term of one induction step of Cauchy-Schwarz. */
  lemma CrossTermBound(x: real, y: real, d: real, a: real, b: real)
    requires 0.0 <= a && 0.0 <= b && d * d <= a * b
    ensures 2.0 * x * y * d <= x * x * b + y * y * a
  {
    var xx, yy := x * x, y * y;
    SquareNonNegative(x);
    SquareNonNegative(y);
    MulNonNegative(xx, b);
    MulNonNegative(yy, a);
    var p := xx * b + yy * a;
    var u := 2.0 * x * y * d;
    var q := xx * b - yy * a;
    SquareNonNegative(q);
    MulNonNegative(xx, yy);
    MulNonNegative(4.0 * (xx * yy), a * b - d * d);
    assert p * p - u * u == q * q + 4.0 * (xx * yy) * (a * b - d * d);
    SquareBound(u, p);
  }

  /** One induction step of Cauchy-Schwarz, on the first coordinates x, y and the rest's sums. */
  lemma CauchySchwarzStep(x: real, y: real, d: real, a: real, b: real, s: real, t: real, u: real)
    requires 0.0 <= a && 0.0 <= b && d * d <= a * b
    requires s == x * y + d && t == x * x + a && u == y * y + b
    ensures s * s <= t * u
  {
    CrossTermBound(x, y, d, a, b);
    assert (x * y + d) * (x * y + d) == x * x * (y * y) + 2.0 * x * y * d + d * d;
    assert (x * x + a) * (y * y + b) == x * x * (y * y) + (x * x * b + y * y * a) + a * b;
  }

  /** Cauchy-Schwarz: Dot(a, b)^2 <= Dot(a, a) * Dot(b, b). */
  lemma {:induction false} CauchySchwarz(a: Features, b: Features)
    requires |a| == |b|
    ensures Dot(a, b) * Dot(a, b) <= Dot(a, a) * Dot(b, b)
  {
    if |a| > 0 {
      var x, y := a[0], b[0];
      var d, p, q := Dot(a[1..], b[1..]), Dot(a[1..], a[1..]), Dot(b[1..], b[1..]);
      CauchySchwarz(a[1..], b[1..]);
      SumOfSquaresNonNegative(a[1..]);
      SumOfSquaresNonNegative(b[1..]);
      assert Dot(a, b) == x * y + d && Dot(a, a) == x * x + p && Dot(b, b) == y * y + q;
      CauchySchwarzStep(x, y, d, p, q, Dot(a, b), Dot(a, a), Dot(b, b));
    }
  }

  /** `d / (n1 * n2) <= 1` when `d² <= n1² * n2²` and both norms are positive. */
  lemma CosineAtMostOne(d: real, n1: real, n2: real, s1: real, s2: real)
    requires 0.0 < n1 && 0.0 < n2 && n1 * n1 == s1 && n2 * n2 == s2 && d * d <= s1 * s2
    ensures d / (n1 * n2) <= 1.0
  {
    var k := n1 * n2;
    MulPositive(n1, n2);
    assert k * k == s1 * s2;
    SquareBound(d, k);
    QuotientAtMostOne(d, k);
  }

  /** The unclamped cosine of two equally long vectors of positive Euclidean lengths n1, n2 is at most 1. */
  lemma CosineOfVectorsAtMostOne(a: Features, b: Features, n1: real, n2: real)
    requires |a| == |b| && 0.0 < n1 && 0.0 < n2 && n1 * n1 == Dot(a, a) && n2 * n2 == Dot(b, b)
    ensures Dot(a, b) / (n1 * n2) <= 1.0
  {
    CauchySchwarz(a, b);
    CosineAtMostOne(Dot(a, b), n1, n2, Dot(a, a), Dot(b, b));
  }

  /** The score of two vectors is at most 1 when the norms of their common prefixes are Euclidean lengths. */
  lemma ScoreAtMostOne(v1: Features, v2: Features, norm: Norm)
    requires var m := Min(|v1|, |v2|);
      0.0 <= norm(v1[..m]) && norm(v1[..m]) * norm(v1[..m]) == Dot(v1[..m], v1[..m]) &&
      0.0 <= norm(v2[..m]) && norm(v2[..m]) * norm(v2[..m]) == Dot(v2[..m], v2[..m])
    ensures CompareFaces(Some(v1), Some(v2), norm) <= 1.0
  {
    var m := Min(|v1|, |v2|);
    var a, b := v1[..m], v2[..m];
    var n1, n2 := norm(a), norm(b);
    if n1 != 0.0 && n2 != 0.0 {
      CosineOfVectorsAtMostOne(a, b, n1, n2);
      var c := Dot(a, b) / (n1 * n2);
      assert CompareFaces(Some(v1), Some(v2), norm) == if c > 0.0 then c else 0.0;
    }
  }

  /** With a Euclidean norm the score never exceeds 1. */
  lemma CompareFacesAtMostOne(f1: Option<Features>, f2: Option<Features>, norm: Norm)
    requires EuclideanNorm(norm)
    ensures CompareFaces(f1, f2, norm) <= 1.0
  {
    if f1.Some? && f2.Some? {
      var m := Min(|f1.value|, |f2.value|);
      var a, b := f1.value[..m], f2.value[..m];
      assert 0.0 <= norm(a) && norm(a) * norm(a) == Dot(a, a);
      assert 0.0 <= norm(b) && norm(b) * norm(b) == Dot(b, b);
      ScoreAtMostOne(f1.value, f2.value, norm);
    }
  }

  /* ---------------------------------------------------------------------
   * The gallery: a dict keyed by name, in insertion order
   * ------------------------------------------------------------------- */

  /** Dict keys are unique. */
  predicate UniqueFaceNames(faces: seq<KnownFace>)
  {
    forall i, j :: 0 <= i < |faces| && 0 <= j < |faces| && faces[i].name == faces[j].name ==> i == j
  }

  /** Position of the entry with a given key. */
  function IndexOf(faces: seq<KnownFace>, name: string): (r: Option<nat>)
    ensures r.Some? ==> r.value < |faces| && faces[r.value].name == name
    ensures r.None? <==> forall i :: 0 <= i < |faces| ==> faces[i].name != name
  {
    if |faces| == 0 then None
    else if faces[|faces| - 1].name == name then Some(|faces| - 1)
    else
      var r := IndexOf(faces[..|faces| - 1], name);
      assert forall i :: 0 <= i < |faces| - 1 ==> faces[..|faces| - 1][i] == faces[i];
      r
  }

  /** `known_faces.get(name)`. */
  function Lookup(faces: seq<KnownFace>, name: string): (r: Option<KnownFace>)
    ensures r.Some? ==> r.value in faces && r.value.name == name
    ensures r.None? <==> forall i :: 0 <= i < |faces| ==> faces[i].name != name
  {
    match IndexOf(faces, name)
    case None => None
    case Some(i) => Some(faces[i])
  }

  /** With unique keys, the lookup of an entry's key finds that entry. */
  lemma LookupAt(faces: seq<KnownFace>, i: nat)
    requires UniqueFaceNames(faces) && i < |faces|
    ensures Lookup(faces, faces[i].name) == Some(faces[i])
  {
  }

  /**
   * `known_faces[name] = entry`: a new key goes last, an existing key keeps its
   * position and gets the new value; every other key is untouched.
   */
  function Put(faces: seq<KnownFace>, entry: KnownFace): (r: seq<KnownFace>)
    requires UniqueFaceNames(faces)
    ensures UniqueFaceNames(r)
    ensures Lookup(r, entry.name) == Some(entry)
    ensures forall name :: name != entry.name ==> Lookup(r, name) == Lookup(faces, name)
    ensures Lookup(faces, entry.name).None? ==> r == faces + [entry]
    ensures Lookup(faces, entry.name).Some? ==>
      |r| == |faces| && forall i :: 0 <= i < |r| ==> r[i].name == faces[i].name
    ensures forall e :: e in r ==> e == entry || e in faces
  {
    match IndexOf(faces, entry.name)
    case None =>
      var r := faces + [entry];
      LookupAt(r, |faces|);
      forall name | name != entry.name
        ensures Lookup(r, name) == Lookup(faces, name)
      {
        if Lookup(faces, name).Some? {
          var i := IndexOf(faces, name).value;
          LookupAt(r, i);
        }
      }
      r
    case Some(k) =>
      var r := faces[k := entry];
      LookupAt(r, k);
      forall name | name != entry.name
        ensures Lookup(r, name) == Lookup(faces, name)
      {
        if Lookup(faces, name).Some? {
          var i := IndexOf(faces, name).value;
          LookupAt(r, i);
          LookupAt(faces, i);
        }
      }
      r
  }

  /* ---------------------------------------------------------------------
   * Recognition: the best match over the gallery
   * ------------------------------------------------------------------- */

  /** The score of a probe against one gallery entry. */
  function Score(probe: Features, face: KnownFace, norm: Norm): real
  {
    CompareFaces(Some(probe), face.features, norm)
  }

  /**
   * The outcome of the scan of recognize_face over `faces` in order, starting
   * from (Unknown, 0.0) and replacing the best only on a strictly higher score.
   */
  function Best(probe: Features, faces: seq<KnownFace>, norm: Norm): (m: Match)
    ensures 0.0 <= m.similarity
    ensures forall i :: 0 <= i < |faces| ==> Score(probe, faces[i], norm) <= m.similarity
    ensures m.similarity == 0.0 ==> m.name == Unknown
    ensures m.similarity > 0.0 ==> exists i :: 0 <= i < |faces| && IsFirstBest(probe, faces, norm, i, m)
  {
    if |faces| == 0 then Match(Unknown, 0.0)
    else
      var init := faces[..|faces| - 1];
      var prev := Best(probe, init, norm);
      var last := faces[|faces| - 1];
      var s := Score(probe, last, norm);
      assert forall i :: 0 <= i < |init| ==> init[i] == faces[i];
      if s > prev.similarity then
        var m := Match(last.name, s);
        assert IsFirstBest(probe, faces, norm, |faces| - 1, m);
        m
      else
        assert prev.similarity > 0.0 ==> exists i :: 0 <= i < |faces| && IsFirstBest(probe, faces, norm, i, prev) by {
          if prev.similarity > 0.0 {
            var i :| 0 <= i < |init| && IsFirstBest(probe, init, norm, i, prev);
            assert IsFirstBest(probe, faces, norm, i, prev);
          }
        }
        prev
  }

  /** Entry i attains the best score, carries its name, and every earlier entry scores strictly less. */
  predicate IsFirstBest(probe: Features, faces: seq<KnownFace>, norm: Norm, i: nat, m: Match)
    requires i < |faces|
  {
    faces[i].name == m.name && Score(probe, faces[i], norm) == m.similarity &&
    forall j :: 0 <= j < i ==> Score(probe, faces[j], norm) < m.similarity
  }

  /** recognize_face on the features extracted from the frame. */
  function Recognize(probe: Option<Features>, faces: seq<KnownFace>, norm: Norm): (m: Match)
    ensures probe.None? ==> m == Match(Unknown, 0.0)
  {
    match probe
    case None => Match(Unknown, 0.0)
    case Some(p) => Best(p, faces, norm)
  }

  /**
   * Ties go to the earliest entry: when entries i < j both reach the top score
   * and no entry before i does, the name reported is that of i, not of j.
   */
  lemma EarliestWinsTie(probe: Features, faces: seq<KnownFace>, norm: Norm, i: nat, j: nat)
    requires UniqueFaceNames(faces)
    requires i < j < |faces|
    requires 0.0 < Best(probe, faces, norm).similarity
    requires Score(probe, faces[i], norm) == Best(probe, faces, norm).similarity
    requires Score(probe, faces[j], norm) == Best(probe, faces, norm).similarity
    requires forall k :: 0 <= k < i ==> Score(probe, faces[k], norm) < Best(probe, faces, norm).similarity
    ensures Best(probe, faces, norm).name == faces[i].name
    ensures Best(probe, faces, norm).name != faces[j].name
  {
    var m := Best(probe, faces, norm);
    var k :| 0 <= k < |faces| && IsFirstBest(probe, faces, norm, k, m);
    assert k == i;
  }

  /* ---------------------------------------------------------------------
   * File names of the reference directory
   * ------------------------------------------------------------------- */

  function LowerChar(c: char): char
  {
    if 'A' <= c <= 'Z' then (c as int + 32) as char else c
  }

  /** `str.lower()` on ASCII letters. */
  function Lower(s: string): (r: string)
    ensures |r| == |s| && forall i :: 0 <= i < |s| ==> r[i] == LowerChar(s[i])
  {
    seq(|s|, i requires 0 <= i < |s| => LowerChar(s[i]))
  }

  predicate EndsWith(s: string, suffix: string)
  {
    |suffix| <= |s| && s[|s| - |suffix|..] == suffix
  }

  const ImageExtensions: seq<string> := [".png", ".jpg", ".jpeg"]

  /** `filename.lower().endswith(('.png', '.jpg', '.jpeg'))`. */
  predicate IsImageName(filename: string)
  {
    exists k :: 0 <= k < |ImageExtensions| && EndsWith(Lower(filename), ImageExtensions[k])
  }

  /** Position of the last occurrence of `c`. */
  function LastIndex(s: string, c: char): (r: Option<nat>)
    ensures r.Some? ==> r.value < |s| && s[r.value] == c && forall k :: r.value < k < |s| ==> s[k] != c
    ensures r.None? ==> forall k :: 0 <= k < |s| ==> s[k] != c
  {
    if |s| == 0 then None
    else if s[|s| - 1] == c then Some(|s| - 1)
    else LastIndex(s[..|s| - 1], c)
  }

  predicate HasNonDot(s: string)
  {
    exists i :: 0 <= i < |s| && s[i] != '.'
  }

  /**
   * `os.path.splitext` on a bare file name: split at the last dot, unless
   * only dots precede it (a leading-dot name has no extension).
   */
  function SplitExt(p: string): (r: (string, string))
    ensures r.0 + r.1 == p
    ensures r.1 == [] || (r.1[0] == '.' && forall k :: 1 <= k < |r.1| ==> r.1[k] != '.')
    ensures r.1 != [] <==> exists d :: 0 <= d < |p| && p[d] == '.' && HasNonDot(p[..d])
    ensures r.1 != [] ==> HasNonDot(r.0)
  {
    match LastIndex(p, '.')
    case None => (p, "")
    case Some(d) =>
      if HasNonDot(p[..d]) then
        assert p[..d] + p[d..] == p;
        (p[..d], p[d..])
      else
        assert forall e :: 0 <= e < |p| && p[e] == '.' ==> !HasNonDot(p[..e]) by {
          forall e | 0 <= e < |p| && p[e] == '.'
            ensures !HasNonDot(p[..e])
          {
            forall j | 0 <= j < e
              ensures p[..e][j] == '.'
            {
              assert p[..d][j] == p[j];
            }
          }
        }
        (p, "")
  }

  /** `os.path.splitext(filename)[0]`: the identity name of a reference image. */
  function Stem(filename: string): string
  {
    SplitExt(filename).0
  }

  /** `os.path.join(known_faces_dir, filename)` with the POSIX separator. */
  function JoinPath(dir: string, filename: string): string
  {
    dir + "/" + filename
  }

  /**
   * A file named `name` plus an image extension (in any letter case) is
   * accepted and keyed by `name`, provided `name` is not made of dots only.
   */
  lemma StemOfImageFile(name: string, ext: string)
    requires HasNonDot(name)
    requires |ext| > 0 && ext[0] == '.' && forall k :: 1 <= k < |ext| ==> ext[k] != '.'
    requires Lower(ext) in ImageExtensions
    ensures IsImageName(name + ext)
    ensures Stem(name + ext) == name
  {
    ImageExtensionAccepted(name, ext);
    LastDotStartsExtension(name, ext);
  }

  /** Appending an image extension makes any name an image file name. */
  lemma ImageExtensionAccepted(name: string, ext: string)
    requires Lower(ext) in ImageExtensions
    ensures IsImageName(name + ext)
  {
    var f := name + ext;
    assert Lower(f) == Lower(name) + Lower(ext);
    var k :| 0 <= k < |ImageExtensions| && ImageExtensions[k] == Lower(ext);
    assert Lower(f)[|Lower(f)| - |Lower(ext)|..] == Lower(ext);
    assert EndsWith(Lower(f), ImageExtensions[k]);
  }

  /** The dot that opens a dot-free extension is the last dot of the file name. */
  lemma LastDotStartsExtension(name: string, ext: string)
    requires |ext| > 0 && ext[0] == '.' && forall k :: 1 <= k < |ext| ==> ext[k] != '.'
    ensures LastIndex(name + ext, '.') == Some(|name|)
    ensures (name + ext)[..|name|] == name
  {
    var f := name + ext;
    assert f[|name|] == '.';
    var d := LastIndex(f, '.').value;
    assert d == |name|;
  }

  /** A name made of dots only keeps its extension: its key is the whole file name. */
  lemma DotOnlyNameKeepsExtension(name: string, ext: string)
    requires !HasNonDot(name)
    requires |ext| > 0 && ext[0] == '.' && forall k :: 1 <= k < |ext| ==> ext[k] != '.'
    ensures Stem(name + ext) == name + ext
  {
    LastDotStartsExtension(name, ext);
  }


  /* ---------------------------------------------------------------------
   * Loading the gallery
   * ------------------------------------------------------------------- */

  /**
   * File `i` is the last accepted, decodable file of the listing with its
   * stem: no later such file shares that stem.
   */
  predicate LastWithStem(files: seq<ImageFile>, i: nat)
    requires i < |files|
  {
    IsImageName(files[i].filename) && files[i].image.Some? &&
    forall j :: i < j < |files| && IsImageName(files[j].filename) && files[j].image.Some? ==>
      Stem(files[j].filename) != Stem(files[i].filename)
  }

  /** The gallery load_known_faces builds from a directory listing. */
  function LoadFaces(files: seq<ImageFile>): (r: seq<KnownFace>)
    ensures UniqueFaceNames(r)
    ensures forall i :: 0 <= i < |files| && IsImageName(files[i].filename) && files[i].image.Some? ==>
      Lookup(r, Stem(files[i].filename)).Some?
    ensures forall e :: e in r ==> exists i :: 0 <= i < |files| && LoadedFrom(e, files[i])
    ensures forall i :: 0 <= i < |files| && LastWithStem(files, i) ==>
      Lookup(r, Stem(files[i].filename)) == Some(Entry(files[i]))
  {
    if |files| == 0 then []
    else
      var init := files[..|files| - 1];
      var prev := LoadFaces(init);
      var f := files[|files| - 1];
      var r := if IsImageName(f.filename) && f.image.Some? then Put(prev, Entry(f)) else prev;
      GalleryStep(files, init, prev, r);
      LastFileWins(files, init, prev, r);
      r
  }

  /** One more file of the listing: the last file with each stem is still the one stored under it. */
  lemma LastFileWins(files: seq<ImageFile>, init: seq<ImageFile>, prev: seq<KnownFace>, r: seq<KnownFace>)
    requires |files| > 0 && init == files[..|files| - 1]
    requires UniqueFaceNames(prev)
    requires forall i :: 0 <= i < |init| && LastWithStem(init, i) ==> Lookup(prev, Stem(init[i].filename)) == Some(Entry(init[i]))
    requires r == if IsImageName(files[|files| - 1].filename) && files[|files| - 1].image.Some? then Put(prev, Entry(files[|files| - 1])) else prev
    ensures forall i :: 0 <= i < |files| && LastWithStem(files, i) ==> Lookup(r, Stem(files[i].filename)) == Some(Entry(files[i]))
  {
    var n := |files| - 1;
    forall i | 0 <= i < |files| && LastWithStem(files, i)
      ensures Lookup(r, Stem(files[i].filename)) == Some(Entry(files[i]))
    {
      if i < n {
        assert init[i] == files[i];
        assert forall j :: i < j < |init| ==> init[j] == files[j];
        assert LastWithStem(init, i);
        if IsImageName(files[n].filename) && files[n].image.Some? {
          assert Stem(files[n].filename) != Stem(files[i].filename);
        }
      }
    }
  }

  /** One more file of the listing keeps the gallery's three properties. */
  lemma GalleryStep(files: seq<ImageFile>, init: seq<ImageFile>, prev: seq<KnownFace>, r: seq<KnownFace>)
    requires |files| > 0 && init == files[..|files| - 1]
    requires UniqueFaceNames(prev)
    requires forall i :: 0 <= i < |init| && IsImageName(init[i].filename) && init[i].image.Some? ==>
      Lookup(prev, Stem(init[i].filename)).Some?
    requires forall e :: e in prev ==> exists i :: 0 <= i < |init| && LoadedFrom(e, init[i])
    requires r == if IsImageName(files[|files| - 1].filename) && files[|files| - 1].image.Some? then Put(prev, Entry(files[|files| - 1])) else prev
    ensures UniqueFaceNames(r)
    ensures forall i :: 0 <= i < |files| && IsImageName(files[i].filename) && files[i].image.Some? ==>
      Lookup(r, Stem(files[i].filename)).Some?
    ensures forall e :: e in r ==> exists i :: 0 <= i < |files| && LoadedFrom(e, files[i])
  {
    assert forall i :: 0 <= i < |init| ==> init[i] == files[i];
    var f := files[|files| - 1];
    if IsImageName(f.filename) && f.image.Some? {
      LookupsKept(files, prev, r);
      ProvenanceKept(files, prev, r);
    } else {
      forall e | e in r
        ensures exists i :: 0 <= i < |files| && LoadedFrom(e, files[i])
      {
        var i :| 0 <= i < |files| - 1 && LoadedFrom(e, init[i]);
      }
    }
  }

  /** Every accepted file before the last stays found once the last one's key is stored. */
  lemma LookupsKept(files: seq<ImageFile>, prev: seq<KnownFace>, r: seq<KnownFace>)
    requires |files| > 0 && files[|files| - 1].image.Some?
    requires forall i :: 0 <= i < |files| - 1 && IsImageName(files[i].filename) && files[i].image.Some? ==>
      Lookup(prev, Stem(files[i].filename)).Some?
    requires Lookup(r, Stem(files[|files| - 1].filename)).Some?
    requires forall name :: name != Stem(files[|files| - 1].filename) ==> Lookup(r, name) == Lookup(prev, name)
    ensures forall i :: 0 <= i < |files| && IsImageName(files[i].filename) && files[i].image.Some? ==>
      Lookup(r, Stem(files[i].filename)).Some?
  {
    forall i | 0 <= i < |files| && IsImageName(files[i].filename) && files[i].image.Some?
      ensures Lookup(r, Stem(files[i].filename)).Some?
    {
      var name := Stem(files[i].filename);
      if name != Stem(files[|files| - 1].filename) {
        assert Lookup(r, name) == Lookup(prev, name);
      }
    }
  }

  /** Every entry stays traceable to a file once the last file's entry is stored. */
  lemma ProvenanceKept(files: seq<ImageFile>, prev: seq<KnownFace>, r: seq<KnownFace>)
    requires |files| > 0 && IsImageName(files[|files| - 1].filename) && files[|files| - 1].image.Some?
    requires forall e :: e in r ==> e == Entry(files[|files| - 1]) || e in prev
    requires forall e :: e in prev ==> exists i :: 0 <= i < |files| - 1 && LoadedFrom(e, files[i])
    ensures forall e :: e in r ==> exists i :: 0 <= i < |files| && LoadedFrom(e, files[i])
  {
    forall e | e in r
      ensures exists i :: 0 <= i < |files| && LoadedFrom(e, files[i])
    {
      if e == Entry(files[|files| - 1]) {
        assert LoadedFrom(e, files[|files| - 1]);
      } else {
        var i :| 0 <= i < |files| - 1 && LoadedFrom(e, files[i]);
      }
    }
  }


  /** The gallery entry for an accepted, decodable file. */
  function Entry(f: ImageFile): KnownFace
    requires f.image.Some?
  {
    KnownFace(Stem(f.filename), JoinPath(KnownFacesDir, f.filename), f.image.value.features)
  }

  /** Entry `e` comes from file `f`: an accepted image, keyed by its stem, with its path and features. */
  predicate LoadedFrom(e: KnownFace, f: ImageFile)
  {
    IsImageName(f.filename) && f.image.Some? && e == Entry(f)
  }

  /** The image names of a listing, in order: the names load_known_faces syncs into the store. */
  function ImageNames(files: seq<ImageFile>): seq<string>
  {
    if |files| == 0 then []
    else
      var f := files[|files| - 1];
      ImageNames(files[..|files| - 1]) + (if IsImageName(f.filename) then [Stem(f.filename)] else [])
  }

  /** One more file of the listing: how the gallery and the synced store grow. */
  lemma LoadStep(files: seq<ImageFile>, k: nat, users: seq<Database.UserRow>, nextId: nat, now: nat)
    requires k < |files|
    ensures LoadFaces(files[..k + 1]) ==
      if IsImageName(files[k].filename) && files[k].image.Some?
      then Put(LoadFaces(files[..k]), Entry(files[k])) else LoadFaces(files[..k])
    ensures
      var prev := Database.SyncMany(users, nextId, ImageNames(files[..k]), Some(Database.TempPassword), now);
      var name := Stem(files[k].filename);
      Database.SyncMany(users, nextId, ImageNames(files[..k + 1]), Some(Database.TempPassword), now) ==
      if IsImageName(files[k].filename)
      then Database.Synced(
        Database.SyncRows(prev.users, prev.nextId, name, Some(Database.TempPassword), now),
        Database.NextIdAfter(prev.users, prev.nextId, name))
      else prev
  {
    assert files[..k + 1][..k] == files[..k];
    var names := ImageNames(files[..k]);
    if IsImageName(files[k].filename) {
      var next := names + [Stem(files[k].filename)];
      assert ImageNames(files[..k + 1]) == next;
      assert next[..|names|] == names;
    } else {
      assert ImageNames(files[..k + 1]) == names + [];
      assert names + [] == names;
    }
  }

  /* ---------------------------------------------------------------------
   * The recognizer
   * ------------------------------------------------------------------- */

  class FacialRecognition {
    const db: Database.DatabaseManager
    /** `np.linalg.norm`. */
    const norm: Norm
    /** `known_faces`, in the dict's insertion order. */
    var knownFaces: seq<KnownFace>

    /** __init__ loads the gallery; `listing` is the directory's files, None when it does not exist. */
    constructor(db: Database.DatabaseManager, norm: Norm, listing: Option<seq<ImageFile>>, now: nat)
      requires db.Valid()
      modifies db
      ensures this.db == db && this.norm == norm && db.Valid()
      ensures knownFaces == (if listing.None? then [] else LoadFaces(listing.value))
      ensures db.reachable == old(db.reachable)
      ensures db.accesos == old(db.accesos) && db.nextAccessId == old(db.nextAccessId)
      ensures listing.None? || !db.reachable ==>
        db.usuarios == old(db.usuarios) && db.nextUserId == old(db.nextUserId)
      ensures listing.Some? && db.reachable ==>
        Database.Synced(db.usuarios, db.nextUserId) ==
        Database.SyncMany(old(db.usuarios), old(db.nextUserId), ImageNames(listing.value), Some(Database.TempPassword), now)
    {
      this.db := db;
      this.norm := norm;
      knownFaces := [];
      new;
      LoadKnownFaces(listing, now);
    }

    /**
     * load_known_faces: start from an empty gallery; for every accepted image
     * name sync its stem into the store, and when the image decodes, store its
     * path and features under that stem.
     */
    method LoadKnownFaces(listing: Option<seq<ImageFile>>, now: nat)
      requires db.Valid()
      modifies this, db
      ensures db.Valid()
      ensures knownFaces == (if listing.None? then [] else LoadFaces(listing.value))
      ensures db.reachable == old(db.reachable)
      ensures db.accesos == old(db.accesos) && db.nextAccessId == old(db.nextAccessId)
      ensures listing.None? || !db.reachable ==>
        db.usuarios == old(db.usuarios) && db.nextUserId == old(db.nextUserId)
      ensures listing.Some? && db.reachable ==>
        Database.Synced(db.usuarios, db.nextUserId) ==
        Database.SyncMany(old(db.usuarios), old(db.nextUserId), ImageNames(listing.value), Some(Database.TempPassword), now)
    {
      knownFaces := [];
      if listing.None? {
        return;
      }
      var files := listing.value;
      ghost var users0, next0 := db.usuarios, db.nextUserId;
      var k := 0;
      while k < |files|
        invariant 0 <= k <= |files|
        invariant db.Valid()
        invariant knownFaces == LoadFaces(files[..k])
        invariant db.reachable == old(db.reachable)
        invariant db.accesos == old(db.accesos) && db.nextAccessId == old(db.nextAccessId)
        invariant Database.Synced(db.usuarios, db.nextUserId) ==
          (if db.reachable then Database.SyncMany(users0, next0, ImageNames(files[..k]), Some(Database.TempPassword), now)
           else Database.Synced(users0, next0))
      {
        LoadStep(files, k, users0, next0, now);
        LoadFile(files[k], now);
        k := k + 1;
      }
      assert files[..k] == files;
    }

    /** One iteration of load_known_faces' loop. */
    method LoadFile(f: ImageFile, now: nat)
      requires db.Valid() && UniqueFaceNames(knownFaces)
      modifies this, db
      ensures db.Valid()
      ensures knownFaces == if IsImageName(f.filename) && f.image.Some? then Put(old(knownFaces), Entry(f)) else old(knownFaces)
      ensures db.reachable == old(db.reachable)
      ensures db.accesos == old(db.accesos) && db.nextAccessId == old(db.nextAccessId)
      ensures Database.Synced(db.usuarios, db.nextUserId) ==
        if db.reachable && IsImageName(f.filename)
        then Database.Synced(
          Database.SyncRows(old(db.usuarios), old(db.nextUserId), Stem(f.filename), Some(Database.TempPassword), now),
          Database.NextIdAfter(old(db.usuarios), old(db.nextUserId), Stem(f.filename)))
        else Database.Synced(old(db.usuarios), old(db.nextUserId))
    {
      if IsImageName(f.filename) {
        var name := Stem(f.filename);
        var _ := db.SyncUser(name, now);
        if f.image.Some? {
          knownFaces := Put(knownFaces, Entry(f));
        }
      }
    }

    /** recognize_face: scan the gallery in order, keeping the first strictly best score. */
    method RecognizeFace(frame: Frame) returns (m: Match)
      ensures m == Recognize(frame.features, knownFaces, norm)
    {
      if frame.features.None? {
        return Match(Unknown, 0.0);
      }
      var probe := frame.features.value;
      var bestMatch, bestSimilarity := Unknown, 0.0;
      var k := 0;
      while k < |knownFaces|
        invariant 0 <= k <= |knownFaces|
        invariant Match(bestMatch, bestSimilarity) == Best(probe, knownFaces[..k], norm)
      {
        assert knownFaces[..k + 1][..k] == knownFaces[..k];
        var similarity := CompareFaces(Some(probe), knownFaces[k].features, norm);
        if similarity > bestSimilarity {
          bestSimilarity := similarity;
          bestMatch := knownFaces[k].name;
        }
        k := k + 1;
      }
      assert knownFaces[..k] == knownFaces;
      m := Match(bestMatch, bestSimilarity);
    }
  }
}

=== FILE: monolith.dfy ===
/**
 * The single-file variant of the system (PROGRAMA/program.py): the same
 * tables, score and notifier, with its own recognition loop, its own sync of
 * gallery names (no password column), and its own copy of the admin panel.
 * The members here are stated next to the modular ones so that the
 * differences between the two variants are lemmas.
 */
module Monolith {
  import opened Wrappers
  import opened Config
  import opened Database
  import opened FaceRecognition
  import opened Notification
  import opened WebServer
  import Auth

  /* ---------------------------------------------------------------------
   * Recognition and decision
   * ------------------------------------------------------------------- */

  /** What recognize_user reports to the notifier: name, verdict and score. */
  datatype Report = Report(name: string, tipo: AccessType, similarity: real)

  /**
   * The closing decision of recognize_user: the best-matching name is
   * admitted when its score is strictly above the threshold; otherwise
   * "Desconocido" is denied, carrying the near-miss score.
   */
  function Decide(m: Match): (r: Report)
    ensures r.similarity == m.similarity
    ensures r.tipo == Permitido <==> m.similarity > SimilarityThreshold
    ensures r.tipo == Permitido ==> r.name == m.name
    ensures r.tipo == Denegado ==> r.name == Unknown
  {
    if m.similarity > SimilarityThreshold then Report(m.name, Permitido, m.similarity)
    else Report(Unknown, Denegado, m.similarity)
  }

  /** An admitted name is the first gallery entry with the best score, and that score beats the threshold. */
  lemma AdmittedNameIsBestInGallery(probe: Features, faces: seq<KnownFace>, norm: Norm)
    requires Decide(Recognize(Some(probe), faces, norm)).tipo == Permitido
    ensures exists i :: (
      0 <= i < |faces| && IsFirstBest(probe, faces, norm, i, Recognize(Some(probe), faces, norm)) &&
      faces[i].name == Decide(Recognize(Some(probe), faces, norm)).name &&
      Score(probe, faces[i], norm) > SimilarityThreshold)
  {
    var m := Recognize(Some(probe), faces, norm);
    assert m == Best(probe, faces, norm);
    assert m.similarity > 0.0;
    var i :| 0 <= i < |faces| && IsFirstBest(probe, faces, norm, i, m);
    assert faces[i].name == Decide(m).name;
  }

  /** A frame without a face is always reported as a denied "Desconocido" with score 0. */
  lemma NoFaceIsDeniedWithZero(faces: seq<KnownFace>, norm: Norm)
    ensures Decide(Recognize(None, faces, norm)) == Report(Unknown, Denegado, 0.0)
  {
  }

  /**
   * The two variants disagree on whom they admit: the modular check admits
   * only the logged-in user, while this one admits whichever enrolled name
   * scores best. Whatever the modular check admits, this one admits too.
   */
  lemma ModularAdmissionImpliesMonolithAdmission(currentUser: string, m: Match)
    ensures Auth.AccessDecision(currentUser, m) == Permitido ==> Decide(m) == Report(currentUser, Permitido, m.similarity)
    ensures m.similarity > SimilarityThreshold && m.name != currentUser ==>
      Decide(m).tipo == Permitido && Auth.AccessDecision(currentUser, m) == Denegado
  {
  }

  /* ---------------------------------------------------------------------
   * The monolith's admin panel
   * ------------------------------------------------------------------- */

  /** The confirmation literal of this variant's cleanup route. */
  const LegacyConfirmation: string := "123456798"

  /** do_GET here: '/exportar' is one more alias of the access export, and there is no history route. */
  function LegacyRouteGet(path: string): (r: GetRoute)
    ensures r != History
    ensures r == NotFoundGet <==> (
      path != "/" && path != "/data" && path != "/exportar" && path != "/exportar-usuarios" && path != "/exportar-accesos")
  {
    if path == "/" then Index
    else if path == "/data" then DataRoute
    else if path == "/exportar" then ExportAccesses
    else if path == "/exportar-usuarios" then ExportUsers
    else if path == "/exportar-accesos" then ExportAccesses
    else NotFoundGet
  }

  /** The two routers agree except on '/exportar' and on history paths. */
  lemma {:induction false} RoutersAgreeElsewhere(path: string)
    ensures path != "/exportar" && !StartsWith(path, HistoryPrefix) ==> LegacyRouteGet(path) == RouteGet(path)
    ensures LegacyRouteGet("/exportar") == ExportAccesses && RouteGet("/exportar") == NotFoundGet
    ensures StartsWith(path, HistoryPrefix) ==> LegacyRouteGet(path) == NotFoundGet && RouteGet(path) == History
  {
    assert "/exportar"[..1] == "/";
    if StartsWith(path, HistoryPrefix) {
      assert path[1] == HistoryPrefix[1] == 'h';
      assert "/data"[1] == 'd' && "/exportar"[1] == 'e' && "/exportar-usuarios"[1] == 'e' && "/exportar-accesos"[1] == 'e';
    }
  }

  /** handle_clean here: the confirmation is checked before the connection is opened. */
  function LegacyCleanDecision(reachable: bool, form: map<string, string>): (r: CleanOutcome)
    ensures r == NoConnection ==> Get(form, "confirmacion") == LegacyConfirmation && !reachable
    ensures r in {TruncateAccesses, TruncateEverything} ==> reachable && Get(form, "confirmacion") == LegacyConfirmation
  {
    if Get(form, "confirmacion") != LegacyConfirmation then WrongConfirmation
    else if !reachable then NoConnection
    else if Get(form, "tipo") == "accesos" then TruncateAccesses
    else if Get(form, "tipo") == "todo" then TruncateEverything
    else InvalidType
  }

  /**
   * The two cleanup routes differ only in the order of their first two checks:
   * with the store reachable they decide alike; with it unreachable a wrong
   * confirmation is a 400 here and a 500 in the modular panel. Both truncate
   * exactly in the same cases.
   */
  lemma CleanRoutesCompared(reachable: bool, form: map<string, string>)
    ensures reachable ==> LegacyCleanDecision(reachable, form) == CleanDecision(reachable, form)
    ensures !reachable && Get(form, "confirmacion") != AdminPassword ==>
      CleanStatus(LegacyCleanDecision(reachable, form)) == 400 && CleanStatus(CleanDecision(reachable, form)) == 500
    ensures LegacyCleanDecision(reachable, form) == CleanDecision(reachable, form) ||
      (!reachable && CleanStatus(LegacyCleanDecision(reachable, form)) != 200 && CleanStatus(CleanDecision(reachable, form)) != 200)
  {
  }

  /** The panel as program.py starts it; it opens its own connections to the same store. */
  class LegacyWebHandler {
    const db: DatabaseManager
    /** The modular handlers, whose data and export bodies this variant repeats. */
    const panel: WebHandler

    constructor(panel: WebHandler)
      ensures this.panel == panel && this.db == panel.db
    {
      this.panel := panel;
      this.db := panel.db;
    }

    /** do_GET; `indexFound` is whether web_admin/index.html exists (a 404 otherwise). */
    method LegacyDoGet(path: string, render: Render, indexFound: bool) returns (resp: Response)
      requires db == panel.db
      ensures LegacyRouteGet(path) == NotFoundGet ==> resp == Error(404)
      ensures LegacyRouteGet(path) == Index ==> resp == if indexFound then IndexPage else Error(404)
      ensures LegacyRouteGet(path) == ExportAccesses && db.reachable ==> (
        resp.Csv? && resp.kind == AccessesExport &&
        IsExport(resp.rows, Header(AccessesExport), Records(AccessesExport, db.usuarios, db.accesos), render))
      ensures LegacyRouteGet(path) == ExportUsers && db.reachable ==> (
        resp.Csv? && resp.kind == UsersExport &&
        IsExport(resp.rows, Header(UsersExport), Records(UsersExport, db.usuarios, db.accesos), render))
      ensures LegacyRouteGet(path) == DataRoute && db.reachable ==> IsPanelData(resp, db.usuarios, db.accesos)
      ensures LegacyRouteGet(path) !in {NotFoundGet, Index} && !db.reachable ==> resp == Error(500)
    {
      var route := LegacyRouteGet(path);
      if route == Index {
        resp := if indexFound then IndexPage else Error(404);
      } else if route == DataRoute {
        resp := panel.SendData();
      } else if route == ExportUsers {
        resp := panel.ExportData(UsersExport, render);
      } else if route == ExportAccesses {
        resp := panel.ExportData(AccessesExport, render);
      } else {
        resp := Error(404);
      }
    }

    /**
     * handle_clean: a wrong confirmation is a 400 that never touches the
     * store, whether or not it is reachable; then a failed connection is a
     * 500; then 'accesos' or 'todo' truncate, anything else is a 500.
     */
    method LegacyHandleClean(form: map<string, string>) returns (resp: Response)
      requires db.Valid()
      modifies db
      ensures db.Valid()
      ensures db.reachable == old(db.reachable)
      ensures Status(resp) == CleanStatus(LegacyCleanDecision(old(db.reachable), form))
      ensures Get(form, "confirmacion") != LegacyConfirmation ==> resp == PlainText(400, "Confirmación incorrecta") && unchanged(db)
      ensures LegacyCleanDecision(old(db.reachable), form) !in {TruncateAccesses, TruncateEverything} ==> unchanged(db)
      ensures LegacyCleanDecision(old(db.reachable), form) == TruncateAccesses ==>
        db.accesos == [] && db.usuarios == old(db.usuarios) &&
        db.nextAccessId == 1 && db.nextUserId == old(db.nextUserId) &&
        resp == PlainText(200, "Historial de accesos eliminado")
      ensures LegacyCleanDecision(old(db.reachable), form) == TruncateEverything ==>
        db.accesos == [] && db.usuarios == [] && db.nextAccessId == 1 && db.nextUserId == 1 &&
        resp == PlainText(200, "Todos los datos eliminados")
    {
      var tipo := Get(form, "tipo");
      var confirmacion := Get(form, "confirmacion");
      if confirmacion != LegacyConfirmation {
        return PlainText(400, "Confirmación incorrecta");
      }
      if !db.reachable {
        return Error(500);
      }
      if tipo == "accesos" {
        db.TruncateAccesos();
        resp := PlainText(200, "Historial de accesos eliminado");
      } else if tipo == "todo" {
        db.TruncateAll();
        resp := PlainText(200, "Todos los datos eliminados");
      } else {
        resp := Error(500);
      }
    }
  }

  /* ---------------------------------------------------------------------
   * The recognizer of program.py
   * ------------------------------------------------------------------- */

  class FacialRecognitionDB {
    const db: DatabaseManager
    const norm: Norm
    /** The notifier; its sender password is a non-blank literal here. */
    const mailer: EmailSender
    /** `known_faces`, in the dict's insertion order. */
    var knownFaces: seq<KnownFace>

    ghost predicate Valid()
      reads this, db
    {
      mailer.db == db && mailer.senderConfigured && db.Valid() && UniqueFaceNames(knownFaces)
    }

    constructor(db: DatabaseManager, norm: Norm, knownFaces: seq<KnownFace>)
      requires db.Valid() && UniqueFaceNames(knownFaces)
      ensures Valid()
      ensures this.db == db && this.norm == norm && this.knownFaces == knownFaces
    {
      this.db := db;
      this.norm := norm;
      this.knownFaces := knownFaces;
      mailer := new EmailSender(db, true);
    }

    /**
     * sync_user_to_db: without a connection nothing happens; otherwise the
     * name gets a row, inserted with only its name and date when absent and
     * no password.
     */
    method SyncUserToDb(username: string, now: nat)
      requires Valid()
      modifies db
      ensures Valid()
      ensures !old(db.reachable) ==> unchanged(db)
      ensures old(db.reachable) ==> db.usuarios == SyncRows(old(db.usuarios), old(db.nextUserId), username, None, now)
      ensures old(db.reachable) ==> HasName(db.usuarios, username) && CountName(db.usuarios, username) == 1
      ensures db.accesos == old(db.accesos) && db.reachable == old(db.reachable)
    {
      if !db.reachable {
        return;
      }
      SyncLeavesOneRow(db.usuarios, db.nextUserId, username, None, now);
      db.InsertRowIfAbsent(username, None, now);
    }

    /**
     * recognize_user: no frame ends the call with nothing reported or
     * logged; a frame without a face is reported as a denied "Desconocido"
     * with score 0; otherwise the gallery is scanned in order keeping the
     * first strictly best score, and the decision is reported. The notifier
     * logs the report once it is delivered.
     */
    method RecognizeUser(frame: Option<Frame>, imagePath: string, delivered: bool, now: nat) returns (report: Option<Report>)
      requires Valid()
      modifies db
      ensures Valid()
      ensures frame.None? ==> report.None? && unchanged(db)
      ensures frame.Some? ==> report == Some(Decide(Recognize(frame.value.features, knownFaces, norm)))
      ensures frame.Some? && frame.value.features.None? ==> report == Some(Report(Unknown, Denegado, 0.0))
      ensures report.Some? && (!delivered || !old(db.reachable)) ==> unchanged(db)
      ensures db.reachable == old(db.reachable) && db.nextUserId == old(db.nextUserId)
      ensures report.Some? && delivered && old(db.reachable) ==> db.nextAccessId == old(db.nextAccessId) + 1
      ensures report.Some? && delivered && old(db.reachable) ==>
        db.accesos == old(db.accesos) + [NewAccess(old(db.nextAccessId),
          LoggedId(old(db.usuarios), true, report.value.name, report.value.tipo),
          report.value.name, report.value.tipo, report.value.similarity, imagePath, now)]
      ensures report.Some? && delivered && old(db.reachable) ==>
        db.usuarios == LoggedUsers(old(db.usuarios),
          LoggedId(old(db.usuarios), true, report.value.name, report.value.tipo), report.value.tipo, now)
    {
      if frame.None? {
        return None;
      }
      var features := frame.value.features;
      if features.None? {
        var _ := mailer.SendDetailedEmail(Unknown, Denegado, 0.0, imagePath, delivered, now);
        return Some(Report(Unknown, Denegado, 0.0));
      }
      var best := BestMatch(features.value);
      if best.similarity > SimilarityThreshold {
        report := Some(Report(best.name, Permitido, best.similarity));
      } else {
        report := Some(Report(Unknown, Denegado, best.similarity));
      }
      var _ := mailer.SendDetailedEmail(report.value.name, report.value.tipo, report.value.similarity, imagePath, delivered, now);
    }

    /** The scan of recognize_user: gallery order, strict `>` from "Desconocido" at 0. */
    method BestMatch(probe: Features) returns (m: Match)
      ensures m == Best(probe, knownFaces, norm)
    {
      var bestMatch, bestSimilarity := Unknown, 0.0;
      var k := 0;
      while k < |knownFaces|
        invariant 0 <= k <= |knownFaces|
        invariant Match(bestMatch, bestSimilarity) == Best(probe, knownFaces[..k], norm)
      {
        assert knownFaces[..k + 1][..k] == knownFaces[..k];
        var similarity := CompareFaces(Some(probe), knownFaces[k].features, norm);
        if similarity > bestSimilarity {
          bestSimilarity := similarity;
          bestMatch := knownFaces[k].name;
        }
        k := k + 1;
      }
      assert knownFaces[..k] == knownFaces;
      m := Match(bestMatch, bestSimilarity);
    }
  }
}

=== FILE: notification.dfy ===
/**
 * The part of the e-mail notifier (clases/email_envio.py) that touches the
 * store: after a report is delivered, the access is logged, with the user's
 * id looked up only for an admitted access. Message composition and SMTP
 * transport are outside the model: `delivered` is the transport's outcome.
 */
module Notification {
  import opened Wrappers
  import opened Database

  /** The id logged with an access: looked up by name for PERMITIDO, None for DENEGADO. */
  function LoggedId(users: seq<UserRow>, reachable: bool, username: string, accessType: AccessType): (r: Option<nat>)
    ensures accessType == Denegado ==> r.None?
    ensures r.Some? ==> reachable && exists i :: 0 <= i < |users| && users[i].nombre == username && users[i].id == r.value
    ensures accessType == Permitido && reachable && HasName(users, username) ==> r.Some?
  {
    if accessType == Permitido && reachable then
      match FindByName(users, username)
      case None => None
      case Some(row) => Some(row.id)
    else None
  }

  class EmailSender {
    const db: DatabaseManager
    /** Whether a sender password is configured (non-blank). */
    const senderConfigured: bool

    constructor(db: DatabaseManager, senderConfigured: bool)
      ensures this.db == db && this.senderConfigured == senderConfigured
    {
      this.db := db;
      this.senderConfigured := senderConfigured;
    }

    /**
     * send_detailed_email: without a sender password nothing is sent or
     * logged; otherwise the report goes out and, only when it was delivered,
     * one access row is logged.
     */
    method SendDetailedEmail(username: string, accessType: AccessType, similarity: real, imagePath: string, delivered: bool, now: nat)
      returns (success: bool)
      requires db.Valid()
      modifies db
      ensures db.Valid()
      ensures success == (senderConfigured && delivered)
      ensures !success || !old(db.reachable) ==> unchanged(db)
      ensures db.reachable == old(db.reachable) && db.nextUserId == old(db.nextUserId)
      ensures success && old(db.reachable) ==> db.nextAccessId == old(db.nextAccessId) + 1
      ensures success && old(db.reachable) ==>
        db.accesos == old(db.accesos) +
          [NewAccess(old(db.nextAccessId), LoggedId(old(db.usuarios), old(db.reachable), username, accessType),
                     username, accessType, similarity, imagePath, now)]
      ensures success && old(db.reachable) ==>
        db.usuarios == LoggedUsers(old(db.usuarios), LoggedId(old(db.usuarios), old(db.reachable), username, accessType), accessType, now)
    {
      if !senderConfigured {
        return false;
      }
      success := delivered;
      if success {
        var userId: Option<nat> := None;
        if accessType == Permitido {
          userId := db.GetUserId(username);
        }
        assert userId == LoggedId(db.usuarios, db.reachable, username, accessType) by {
          if accessType == Permitido && db.reachable && HasName(db.usuarios, username) {
            var i :| 0 <= i < |db.usuarios| && db.usuarios[i].nombre == username;
            FindByNameIsTheRow(db.usuarios, username, i);
            var j :| 0 <= j < |db.usuarios| && db.usuarios[j].nombre == username && db.usuarios[j].id == userId.value;
          }
        }
        var _ := db.LogAccess(userId, username, accessType, similarity, imagePath, now);
      }
    }
  }
}

=== FILE: web_server.dfy ===
/**
 * The admin web panel of the modular system (clases/web_server.py): request
 * routing, the JSON statistics, the CSV exports, the per-user history page
 * and the cleanup route. Each handler opens its own connection to the store;
 * `db.reachable` says whether that succeeds.
 *
 * The query string and the POST body are given already parsed, as the first
 * value of each key (`parse_qs(...)[key][0]`). Python's `str()` rendering of a
 * cell is a parameter, and HTML bodies are reduced to the values they show.
 */
module WebServer {
  import opened Wrappers
  import opened Config
  import opened Database

  /* ---------------------------------------------------------------------
   * Routing
   * ------------------------------------------------------------------- */

  datatype GetRoute = Index | DataRoute | ExportUsers | ExportAccesses | History | NotFoundGet
  datatype PostRoute = Clean | NotFoundPost

  const HistoryPrefix: string := "/historial-usuario"

  predicate StartsWith(s: string, prefix: string)
  {
    |prefix| <= |s| && s[..|prefix|] == prefix
  }

  /** do_GET: four exact paths, then the history prefix, else 404. */
  function RouteGet(path: string): (r: GetRoute)
    ensures r == NotFoundGet <==> (
      path != "/" && path != "/data" && path != "/exportar-usuarios" && path != "/exportar-accesos" &&
      !StartsWith(path, HistoryPrefix))
  {
    if path == "/" then Index
    else if path == "/data" then DataRoute
    else if path == "/exportar-usuarios" then ExportUsers
    else if path == "/exportar-accesos" then ExportAccesses
    else if StartsWith(path, HistoryPrefix) then History
    else NotFoundGet
  }

  /** Every path that begins with the history prefix, query string included, reaches the history page. */
  lemma HistoryPrefixRoutes(suffix: string)
    ensures RouteGet(HistoryPrefix + suffix) == History
  {
    var p := HistoryPrefix + suffix;
    assert p[..|HistoryPrefix|] == HistoryPrefix;
    assert p[1] == 'h';
    assert "/data"[1] == 'd' && "/exportar-usuarios"[1] == 'e' && "/exportar-accesos"[1] == 'e';
  }

  /**
   * The exact paths are compared whole: a query string or a sub-path after
   * any of them is a 404, and so is the bare "/exportar".
   */
  lemma ExactPathsAreExact(s: string)
    requires |s| > 0 && (s[0] == '?' || s[0] == '/')
    ensures RouteGet("/" + s) == NotFoundGet
    ensures RouteGet("/data" + s) == NotFoundGet
    ensures RouteGet("/exportar-usuarios" + s) == NotFoundGet
    ensures RouteGet("/exportar-accesos" + s) == NotFoundGet
    ensures RouteGet("/exportar") == NotFoundGet
  {
    assert "/exportar"[..1] == "/";
    var p0, p1, p2, p3 := "/" + s, "/data" + s, "/exportar-usuarios" + s, "/exportar-accesos" + s;
    assert p0[1] == s[0] && p1[1] == 'd' && p2[1] == 'e' && p3[1] == 'e';
    assert "/data"[1] == 'd' && "/exportar-usuarios"[1] == 'e' && "/exportar-accesos"[1] == 'e' && HistoryPrefix[1] == 'h';
    assert p2[10] == 'u' && "/exportar-accesos"[10] == 'a';
    assert p3[10] == 'a' && "/exportar-usuarios"[10] == 'u';
  }

  /** do_POST: only '/limpiar'. */
  function RoutePost(path: string): (r: PostRoute)
    ensures r == Clean <==> path == "/limpiar"
  {
    if path == "/limpiar" then Clean else NotFoundPost
  }

  /* ---------------------------------------------------------------------
   * Statistics and ordering
   * ------------------------------------------------------------------- */

  /** The positions of the events of type `t`: the rows `WHERE tipo_acceso = t` selects. */
  function TypeIndices(accesses: seq<AccessRow>, t: AccessType): set<nat>
  {
    set i: nat | i < |accesses| && accesses[i].tipo == t
  }

  /** One more event adds its position to the selection of its type, and nothing else. */
  lemma TypeIndicesExtend(accesses: seq<AccessRow>, t: AccessType)
    requires |accesses| > 0
    ensures |TypeIndices(accesses, t)| ==
      |TypeIndices(accesses[..|accesses| - 1], t)| + (if accesses[|accesses| - 1].tipo == t then 1 else 0)
  {
    var n := |accesses| - 1;
    var init := accesses[..n];
    var extra: set<nat> := if accesses[n].tipo == t then {n} else {};
    assert forall i :: 0 <= i < n ==> init[i] == accesses[i];
    assert TypeIndices(accesses, t) == TypeIndices(init, t) + extra;
    assert n !in TypeIndices(init, t);
  }

  /** `COUNT(*) ... WHERE tipo_acceso = t`: the number of events of that type. */
  function CountType(accesses: seq<AccessRow>, t: AccessType): (n: nat)
    ensures n == |TypeIndices(accesses, t)|
    ensures n <= |accesses|
  {
    if |accesses| == 0 then 0
    else
      TypeIndicesExtend(accesses, t);
      CountType(accesses[..|accesses| - 1], t) + (if accesses[|accesses| - 1].tipo == t then 1 else 0)
  }

  /** Every access is admitted or denied: the two counts add up to the total. */
  lemma {:induction false} CountTypesPartition(accesses: seq<AccessRow>)
    ensures CountType(accesses, Permitido) + CountType(accesses, Denegado) == |accesses|
  {
    if |accesses| > 0 {
      CountTypesPartition(accesses[..|accesses| - 1]);
    }
  }

  /** Rows in reverse insertion order: `ORDER BY fecha_acceso DESC` for rows logged with a non-decreasing clock. */
  function Reverse<T>(s: seq<T>): (r: seq<T>)
    ensures |r| == |s|
    ensures forall i :: 0 <= i < |s| ==> r[i] == s[|s| - 1 - i]
  {
    if |s| == 0 then [] else [s[|s| - 1]] + Reverse(s[..|s| - 1])
  }

  /** `ORDER BY fecha_acceso DESC LIMIT n`. */
  function Newest<T>(s: seq<T>, n: nat): (r: seq<T>)
    ensures |r| == if |s| <= n then |s| else n
    ensures forall i :: 0 <= i < |r| ==> r[i] == s[|s| - 1 - i]
  {
    var rev := Reverse(s);
    if |rev| <= n then rev else rev[..n]
  }

  /** The table positions of the events logged under `user`, in increasing order. */
  function UserPositions(accesses: seq<AccessRow>, user: string): (ps: seq<nat>)
    ensures forall i, j :: 0 <= i < j < |ps| ==> ps[i] < ps[j]
    ensures forall i :: 0 <= i < |ps| ==> ps[i] < |accesses| && accesses[ps[i]].nombreUsuario == user
    ensures forall p: nat {:trigger p in ps} :: p in ps <==> p < |accesses| && accesses[p].nombreUsuario == user
  {
    if |accesses| == 0 then []
    else
      var init := accesses[..|accesses| - 1];
      var prev := UserPositions(init, user);
      var ps := prev + (if accesses[|accesses| - 1].nombreUsuario == user then [|accesses| - 1] else []);
      assert forall p: nat :: p < |init| ==> accesses[p] == init[p];
      assert forall p: nat :: p < |accesses| && accesses[p].nombreUsuario == user ==> p in ps by {
        forall p: nat | p < |accesses| && accesses[p].nombreUsuario == user
          ensures p in ps
        {
          if p < |init| {
            assert init[p].nombreUsuario == user;
            assert p in prev;
          }
        }
      }
      ps
  }

  /** `WHERE nombre_usuario = %s`. */
  function ForUser(accesses: seq<AccessRow>, user: string): (r: seq<AccessRow>)
    ensures |r| <= |accesses|
    ensures forall i :: 0 <= i < |r| ==> r[i].nombreUsuario == user && r[i] in accesses
    ensures forall a :: a in accesses && a.nombreUsuario == user ==> a in r
  {
    if |accesses| == 0 then []
    else
      var init := accesses[..|accesses| - 1];
      var last := accesses[|accesses| - 1];
      assert accesses == init + [last];
      ForUser(init, user) + (if last.nombreUsuario == user then [last] else [])
  }

  /**
   * The filter keeps table order and takes each matching event once: its
   * i-th event is the one at the i-th matching position of the table.
   */
  lemma {:induction false} ForUserKeepsTableOrder(accesses: seq<AccessRow>, user: string)
    ensures |ForUser(accesses, user)| == |UserPositions(accesses, user)|
    ensures forall i :: 0 <= i < |ForUser(accesses, user)| ==>
      ForUser(accesses, user)[i] == accesses[UserPositions(accesses, user)[i]]
  {
    if |accesses| > 0 {
      var init := accesses[..|accesses| - 1];
      var last := accesses[|accesses| - 1];
      ForUserKeepsTableOrder(init, user);
      var r := ForUser(accesses, user);
      var prev := UserPositions(init, user);
      var ps := UserPositions(accesses, user);
      assert r == ForUser(init, user) + (if last.nombreUsuario == user then [last] else []);
      assert ps == prev + (if last.nombreUsuario == user then [|accesses| - 1] else []);
      forall i | 0 <= i < |r|
        ensures r[i] == accesses[ps[i]]
      {
        if i < |prev| {
          assert r[i] == init[prev[i]];
        }
      }
    }
  }

  /** The event at one place of the filtered list, by its table position. */
  lemma ForUserAt(accesses: seq<AccessRow>, user: string, k: nat)
    requires k < |ForUser(accesses, user)|
    ensures |ForUser(accesses, user)| == |UserPositions(accesses, user)|
    ensures ForUser(accesses, user)[k] == accesses[UserPositions(accesses, user)[k]]
  {
    ForUserKeepsTableOrder(accesses, user);
  }

  /** The four counters of the panel. */
  datatype Stats = Stats(totalUsuarios: nat, totalAccesos: nat, accesosPermitidos: nat, accesosDenegados: nat)

  function PanelStats(users: seq<UserRow>, accesses: seq<AccessRow>): (s: Stats)
    ensures s.accesosPermitidos + s.accesosDenegados == s.totalAccesos
  {
    CountTypesPartition(accesses);
    Stats(|users|, |accesses|, CountType(accesses, Permitido), CountType(accesses, Denegado))
  }

  /* ---------------------------------------------------------------------
   * CSV export
   * ------------------------------------------------------------------- */

  /** A cell value as the driver returns it. */
  datatype Value = Null | Int(i: int) | Text(s: string) | Real(r: real) | Bool(b: bool) | Time(t: nat)

  /** Python's `str()` of a non-null value. */
  type Render = Value -> string

  datatype ExportKind = UsersExport | AccessesExport

  function Header(kind: ExportKind): seq<string>
  {
    match kind
    case UsersExport => ["ID", "Nombre", "Fecha Registro", "Último Acceso", "Activo"]
    case AccessesExport => ["ID", "Usuario", "Tipo Acceso", "Fecha Acceso", "Similitud", "ID Usuario"]
  }

  function TypeText(t: AccessType): string
  {
    match t
    case Permitido => "PERMITIDO"
    case Denegado => "DENEGADO"
  }

  function OptTime(t: Option<nat>): Value
  {
    match t
    case None => Null
    case Some(v) => Time(v)
  }

  function OptId(id: Option<nat>): Value
  {
    match id
    case None => Null
    case Some(v) => Int(v)
  }

  /** `SELECT id, nombre, fecha_registro, ultimo_acceso, activo FROM usuarios`. */
  function UserRecord(u: UserRow): (r: seq<Value>)
    ensures |r| == |Header(UsersExport)|
  {
    [Int(u.id), Text(u.nombre), Time(u.fechaRegistro), OptTime(u.ultimoAcceso), Bool(u.activo)]
  }

  /** `SELECT id, nombre_usuario, tipo_acceso, fecha_acceso, similitud, usuario_id FROM accesos`. */
  function AccessRecord(a: AccessRow): (r: seq<Value>)
    ensures |r| == |Header(AccessesExport)|
  {
    [Int(a.id), Text(a.nombreUsuario), Text(TypeText(a.tipo)), Time(a.fechaAcceso), Real(a.similitud), OptId(a.usuarioId)]
  }

  /** The records an export reads, in the order it writes them: users as stored, events newest first. */
  function Records(kind: ExportKind, users: seq<UserRow>, accesses: seq<AccessRow>): (r: seq<seq<Value>>)
    ensures forall i :: 0 <= i < |r| ==> |r[i]| == |Header(kind)|
    ensures |r| == if kind == UsersExport then |users| else |accesses|
    ensures kind == UsersExport ==> forall i :: 0 <= i < |r| ==> r[i] == UserRecord(users[i])
    ensures kind == AccessesExport ==> forall i :: 0 <= i < |r| ==> r[i] == AccessRecord(accesses[|accesses| - 1 - i])
  {
    match kind
    case UsersExport => seq(|users|, i requires 0 <= i < |users| => UserRecord(users[i]))
    case AccessesExport =>
      var newest := Reverse(accesses);
      seq(|newest|, i requires 0 <= i < |newest| => AccessRecord(newest[i]))
  }

  /** One CSV cell: None becomes the empty string, anything else its `str()`. */
  function Cell(v: Value, render: Render): string
  {
    if v.Null? then "" else render(v)
  }

  /** The rows an export writes: the fixed header, then one row per record, cell by cell. */
  predicate IsExport(rows: seq<seq<string>>, header: seq<string>, records: seq<seq<Value>>, render: Render)
  {
    |rows| == |records| + 1 && rows[0] == header &&
    forall i :: 0 <= i < |records| ==>
      |rows[i + 1]| == |records[i]| && forall j :: 0 <= j < |records[i]| ==> rows[i + 1][j] == Cell(records[i][j], render)
  }

  /** A null value, and only a null value, is written as an empty cell when `str()` never yields "". */
  lemma EmptyCellMeansNull(v: Value, render: Render)
    requires forall w: Value :: !w.Null? ==> render(w) != ""
    ensures Cell(v, render) == "" <==> v.Null?
  {
  }

  /* ---------------------------------------------------------------------
   * Responses
   * ------------------------------------------------------------------- */

  /** One line of the history table; `similitud` is None where the page shows 'N/A'. */
  datatype HistoryLine = HistoryLine(tipo: AccessType, fecha: nat, similitud: Option<real>)

  datatype Summary = Summary(total: nat, permitidos: nat, denegados: nat, porcentaje: real)

  datatype Response =
    | IndexPage
    | Json(stats: Stats, usuarios: seq<seq<Value>>, accesos: seq<seq<Value>>)
    | Csv(kind: ExportKind, rows: seq<seq<string>>)
    | HistoryPage(user: string, summary: Option<Summary>, lines: seq<HistoryLine>)
    | PlainText(code: nat, message: string)
    | Error(code: nat)

  function Status(r: Response): nat
  {
    match r
    case PlainText(code, _) => code
    case Error(code) => code
    case _ => 200
  }

  /** `f"{x*100:.1f}%" if x else 'N/A'`: a zero score is shown as N/A. */
  function Shown(similitud: real): Option<real>
  {
    if similitud == 0.0 then None else Some(similitud)
  }

  function Line(a: AccessRow): HistoryLine
  {
    HistoryLine(a.tipo, a.fechaAcceso, Shown(a.similitud))
  }

  /** The 50 newest accesses logged under that name, newest first (all of them when fewer). */
  function HistoryRows(accesses: seq<AccessRow>, user: string): (r: seq<AccessRow>)
    ensures |r| <= 50
    ensures forall i :: 0 <= i < |r| ==> r[i].nombreUsuario == user && r[i] in accesses
    ensures |r| == if |ForUser(accesses, user)| <= 50 then |ForUser(accesses, user)| else 50
    ensures forall i :: 0 <= i < |r| ==> r[i] == ForUser(accesses, user)[|ForUser(accesses, user)| - 1 - i]
  {
    var mine := ForUser(accesses, user);
    var r := Newest(mine, 50);
    assert forall i :: 0 <= i < |r| ==> r[i] == mine[|mine| - 1 - i];
    r
  }

  /**
   * The history shows the user's events at the last (at most 50) matching
   * table positions: its i-th line is the event at the i-th matching
   * position counted from the end of the table.
   */
  lemma HistoryRowAt(accesses: seq<AccessRow>, user: string, i: nat)
    requires i < |HistoryRows(accesses, user)|
    ensures |HistoryRows(accesses, user)| ==
      if |UserPositions(accesses, user)| <= 50 then |UserPositions(accesses, user)| else 50
    ensures HistoryRows(accesses, user)[i] == accesses[UserPositions(accesses, user)[|UserPositions(accesses, user)| - 1 - i]]
  {
    var f := ForUser(accesses, user);
    var ps := UserPositions(accesses, user);
    assert HistoryRows(accesses, user)[i] == f[|f| - 1 - i];
    ForUserAt(accesses, user, |f| - 1 - i);
  }

  /**
   * The JSON of send_data: the four counters, the selected user columns of
   * every user, and the selected event columns of the 20 newest events.
   */
  predicate IsPanelData(resp: Response, users: seq<UserRow>, accesses: seq<AccessRow>)
  {
    resp.Json? && resp.stats == PanelStats(users, accesses) &&
    resp.usuarios == Records(UsersExport, users, accesses) &&
    |resp.accesos| == (if |accesses| <= 20 then |accesses| else 20) &&
    forall i :: 0 <= i < |resp.accesos| ==> resp.accesos[i] == AccessRecord(accesses[|accesses| - 1 - i])
  }

  /** The history page of a user: one line per selected event, and the counters over those events when there are any. */
  predicate IsHistoryPage(resp: Response, accesses: seq<AccessRow>, user: string)
  {
    var rows := HistoryRows(accesses, user);
    resp.HistoryPage? && resp.user == user &&
    |resp.lines| == |rows| &&
    (forall i :: 0 <= i < |rows| ==> resp.lines[i] == Line(rows[i])) &&
    (resp.summary.None? <==> |rows| == 0) &&
    (resp.summary.Some? ==>
      resp.summary.value.total == |rows| &&
      resp.summary.value.permitidos == CountType(rows, Permitido) &&
      resp.summary.value.denegados == CountType(rows, Denegado) &&
      resp.summary.value.porcentaje == (CountType(rows, Permitido) as real) / (|rows| as real) * 100.0)
  }

  /** The `cleanup` decision of handle_clean, in the order the checks run. */
  datatype CleanOutcome = NoConnection | WrongConfirmation | TruncateAccesses | TruncateEverything | InvalidType

  /** `data.get(key, [''])[0]`. */
  function Get(form: map<string, string>, key: string): string
  {
    if key in form then form[key] else ""
  }

  /** The modular handle_clean: connection first, then the confirmation, then the type. */
  function CleanDecision(reachable: bool, form: map<string, string>): (r: CleanOutcome)
    ensures r == WrongConfirmation ==> Get(form, "confirmacion") != AdminPassword
    ensures r in {TruncateAccesses, TruncateEverything} ==> reachable && Get(form, "confirmacion") == AdminPassword
  {
    if !reachable then NoConnection
    else if Get(form, "confirmacion") != AdminPassword then WrongConfirmation
    else if Get(form, "tipo") == "accesos" then TruncateAccesses
    else if Get(form, "tipo") == "todo" then TruncateEverything
    else InvalidType
  }

  function CleanStatus(outcome: CleanOutcome): nat
  {
    match outcome
    case NoConnection => 500
    case WrongConfirmation => 400
    case TruncateAccesses => 200
    case TruncateEverything => 200
    case InvalidType => 500
  }

  /** With the store reachable, a wrong confirmation is a 400, an unknown type a 500, and only the two known types succeed. */
  lemma CleanStatusCases(form: map<string, string>)
    ensures Get(form, "confirmacion") != AdminPassword ==> CleanStatus(CleanDecision(true, form)) == 400
    ensures CleanStatus(CleanDecision(true, form)) == 200 <==>
      Get(form, "confirmacion") == AdminPassword && Get(form, "tipo") in {"accesos", "todo"}
    ensures CleanStatus(CleanDecision(false, form)) == 500
  {
  }

  class WebHandler {
    const db: DatabaseManager

    constructor(db: DatabaseManager)
      ensures this.db == db
    {
      this.db := db;
    }

    /**
     * send_data: the four counters, then `id, nombre, fecha_registro,
     * ultimo_acceso, activo` of every user and `id, nombre_usuario,
     * tipo_acceso, fecha_acceso, similitud, usuario_id` of the 20 newest
     * accesses; no other column (no password, role or image path) is sent.
     */
    method SendData() returns (resp: Response)
      ensures !db.reachable ==> resp == Error(500)
      ensures db.reachable ==> IsPanelData(resp, db.usuarios, db.accesos)
      ensures db.reachable ==> resp.stats.accesosPermitidos + resp.stats.accesosDenegados == |db.accesos|
    {
      if !db.reachable {
        return Error(500);
      }
      var newest := Newest(db.accesos, 20);
      var accesos := seq(|newest|, i requires 0 <= i < |newest| => AccessRecord(newest[i]));
      resp := Json(PanelStats(db.usuarios, db.accesos), Records(UsersExport, db.usuarios, db.accesos), accesos);
    }

    /** export_data: header first, then every record with None written as '' and the rest through `str()`. */
    method ExportData(kind: ExportKind, render: Render) returns (resp: Response)
      ensures !db.reachable ==> resp == Error(500)
      ensures db.reachable ==> (
        resp.Csv? && resp.kind == kind &&
        IsExport(resp.rows, Header(kind), Records(kind, db.usuarios, db.accesos), render))
    {
      if !db.reachable {
        return Error(500);
      }
      var records := Records(kind, db.usuarios, db.accesos);
      var rows := [Header(kind)];
      var i := 0;
      while i < |records|
        invariant 0 <= i <= |records|
        invariant |rows| == i + 1 && rows[0] == Header(kind)
        invariant forall k :: 0 <= k < i ==>
          |rows[k + 1]| == |records[k]| && forall j :: 0 <= j < |records[k]| ==> rows[k + 1][j] == Cell(records[k][j], render)
      {
        var row := [];
        var j := 0;
        while j < |records[i]|
          invariant 0 <= j <= |records[i]|
          invariant |row| == j && forall c :: 0 <= c < j ==> row[c] == Cell(records[i][c], render)
        {
          row := row + [if records[i][j].Null? then "" else render(records[i][j])];
          j := j + 1;
        }
        rows := rows + [row];
        i := i + 1;
      }
      resp := Csv(kind, rows);
    }

    /**
     * serve_user_history: 400 without a non-empty 'user' before any
     * connection, 500 without a connection, otherwise the page over at most
     * the 50 newest accesses of that user, with admitted and denied counts.
     */
    method ServeUserHistory(query: map<string, string>) returns (resp: Response)
      ensures Get(query, "user") == "" ==> resp == Error(400)
      ensures Get(query, "user") != "" && !db.reachable ==> resp == Error(500)
      ensures Get(query, "user") != "" && db.reachable ==> IsHistoryPage(resp, db.accesos, Get(query, "user"))
    {
      var user := Get(query, "user");
      if user == "" {
        return Error(400);
      }
      if !db.reachable {
        return Error(500);
      }
      var rows := HistoryRows(db.accesos, user);
      if |rows| == 0 {
        return HistoryPage(user, None, []);
      }
      var total := |rows|;
      var permitidos := CountType(rows, Permitido);
      var porcentaje := (permitidos as real) / (total as real) * 100.0;
      var lines := [];
      var k := 0;
      while k < |rows|
        invariant 0 <= k <= |rows|
        invariant |lines| == k && forall i :: 0 <= i < k ==> lines[i] == Line(rows[i])
      {
        lines := lines + [Line(rows[k])];
        k := k + 1;
      }
      CountTypesPartition(rows);
      resp := HistoryPage(user, Some(Summary(total, permitidos, total - permitidos, porcentaje)), lines);
    }

    /** do_GET: the answer of the handler `RouteGet` picks. */
    method DoGet(path: string, query: map<string, string>, render: Render) returns (resp: Response)
      ensures RouteGet(path) == NotFoundGet ==> resp == Error(404)
      ensures RouteGet(path) == Index ==> resp == IndexPage
      ensures RouteGet(path) == DataRoute && db.reachable ==> IsPanelData(resp, db.usuarios, db.accesos)
      ensures RouteGet(path) == ExportUsers && db.reachable ==> (
        resp.Csv? && resp.kind == UsersExport &&
        IsExport(resp.rows, Header(UsersExport), Records(UsersExport, db.usuarios, db.accesos), render))
      ensures RouteGet(path) == ExportAccesses && db.reachable ==> (
        resp.Csv? && resp.kind == AccessesExport &&
        IsExport(resp.rows, Header(AccessesExport), Records(AccessesExport, db.usuarios, db.accesos), render))
      ensures RouteGet(path) == History && Get(query, "user") == "" ==> resp == Error(400)
      ensures RouteGet(path) == History && Get(query, "user") != "" && db.reachable ==>
        IsHistoryPage(resp, db.accesos, Get(query, "user"))
      ensures RouteGet(path) !in {NotFoundGet, Index} && Get(query, "user") != "" && !db.reachable ==> resp == Error(500)
      ensures RouteGet(path) !in {NotFoundGet, Index, History} && !db.reachable ==> resp == Error(500)
    {
      match RouteGet(path)
      case Index => resp := IndexPage;
      case DataRoute => resp := SendData();
      case ExportUsers => resp := ExportData(UsersExport, render);
      case ExportAccesses => resp := ExportData(AccessesExport, render);
      case History => resp := ServeUserHistory(query);
      case NotFoundGet => resp := Error(404);
    }

    /**
     * handle_clean: the connection is opened first; a wrong confirmation is a
     * 400 that truncates nothing; 'accesos' truncates the access log, 'todo'
     * the access log and then the users; any other type is a 500 before any
     * truncation.
     */
    method HandleClean(form: map<string, string>) returns (resp: Response)
      requires db.Valid()
      modifies db
      ensures db.Valid()
      ensures db.reachable == old(db.reachable)
      ensures Status(resp) == CleanStatus(CleanDecision(old(db.reachable), form))
      ensures CleanDecision(old(db.reachable), form) !in {TruncateAccesses, TruncateEverything} ==> unchanged(db)
      ensures CleanDecision(old(db.reachable), form) == WrongConfirmation ==>
        resp == PlainText(400, "Confirmación incorrecta")
      ensures CleanDecision(old(db.reachable), form) == TruncateAccesses ==>
        db.accesos == [] && db.usuarios == old(db.usuarios) &&
        db.nextAccessId == 1 && db.nextUserId == old(db.nextUserId) &&
        resp == PlainText(200, "Historial de accesos eliminado correctamente")
      ensures CleanDecision(old(db.reachable), form) == TruncateEverything ==>
        db.accesos == [] && db.usuarios == [] && db.nextAccessId == 1 && db.nextUserId == 1 &&
        resp == PlainText(200, "Todos los datos eliminados correctamente")
    {
      if !db.reachable {
        return Error(500);
      }
      var tipo := Get(form, "tipo");
      var confirmacion := Get(form, "confirmacion");
      if confirmacion != AdminPassword {
        return PlainText(400, "Confirmación incorrecta");
      }
      if tipo == "accesos" {
        db.TruncateAccesos();
        resp := PlainText(200, "Historial de accesos eliminado correctamente");
      } else if tipo == "todo" {
        db.TruncateAll();
        resp := PlainText(200, "Todos los datos eliminados correctamente");
      } else {
        resp := Error(500);
      }
    }

    /** do_POST: '/limpiar' is handle_clean, with its answers and its effect on the tables; anything else a 404. */
    method DoPost(path: string, form: map<string, string>) returns (resp: Response)
      requires db.Valid()
      modifies db
      ensures db.Valid()
      ensures db.reachable == old(db.reachable)
      ensures RoutePost(path) == NotFoundPost ==> resp == Error(404) && unchanged(db)
      ensures RoutePost(path) == Clean ==> Status(resp) == CleanStatus(CleanDecision(old(db.reachable), form))
      ensures RoutePost(path) == Clean && CleanDecision(old(db.reachable), form) !in {TruncateAccesses, TruncateEverything} ==>
        unchanged(db)
      ensures RoutePost(path) == Clean && CleanDecision(old(db.reachable), form) == WrongConfirmation ==>
        resp == PlainText(400, "Confirmación incorrecta")
      ensures RoutePost(path) == Clean && CleanDecision(old(db.reachable), form) == TruncateAccesses ==>
        db.accesos == [] && db.usuarios == old(db.usuarios) &&
        db.nextAccessId == 1 && db.nextUserId == old(db.nextUserId) &&
        resp == PlainText(200, "Historial de accesos eliminado correctamente")
      ensures RoutePost(path) == Clean && CleanDecision(old(db.reachable), form) == TruncateEverything ==>
        db.accesos == [] && db.usuarios == [] && db.nextAccessId == 1 && db.nextUserId == 1 &&
        resp == PlainText(200, "Todos los datos eliminados correctamente")
    {
      if RoutePost(path) == Clean {
        resp := HandleClean(form);
      } else {
        resp := Error(404);
      }
    }
  }
}

=== FILE: wrappers.dfy ===
/** Option: Python's `None` or a value. */
module Wrappers {
  datatype Option<+T> = None | Some(value: T)
}
